=== FILE: README.md ===
# menquery schema, modelled in Dafny

menquery turns loose, string-typed query-string input into three outputs:

- a filter map (`query`);
- a field-selection map (`select`);
- a cursor (`skip`, `limit`, `sort`).

This project models the core of that engine, the `Schema` and its `Param`s:

- **Schema state.** A `Schema` holds, each in insertion order:
  - its parameters;
  - its schema-level options;
  - three registries of named behaviours: formatters, validators and parsers.
- **Options.** A schema-level option plays two roles. A string value is the query-side alias of the same-named parameter (`page: 'p'`). The value `false` forbids adding that parameter.
- **Parameters.** A parameter stores a coerced value, its default, a type marker and its own options. The marker is either declared as the positional argument (`String`, `Number`, ...) or inferred from a positional default.
- **Behaviours.** A parameter reaches a behaviour through a same-named option that is truthy. The behaviour is looked up in the schema's registry at the time of use, never captured when the parameter is created.
- **`parse(input)`.** It assigns the input under each parameter's query name, then buckets the parameters:
  - `q` becomes a case-insensitive pattern under `keywords`;
  - `select` is tokenised into `{field: 0|1}`;
  - `page` and `limit` give `skip = (page - 1) * limit`;
  - `sort` is tokenised into `{field: -1|1}`, falling back to its default when empty;
  - every other parameter with a value goes into the filter under its query name, or becomes the fragment built by an enabled parser.
- **`validate(input?)`.** It assigns the input, then runs the enabled validators, parameter by parameter in order, until the first failure. It reports that failing verdict, as the callback form receives it.

Module layout:

| file | module | contents |
|---|---|---|
| `wrappers.dfy` | `Wrappers` | `Option` |
| `ordered_map.dfy` | `OrderedMaps` | `OMap`, an insertion-ordered string-keyed map |
| `text.dfy` | `Text` | comma splitting, ASCII upper-casing, decimal integer rendering and parsing |
| `values.dfy` | `Values` | dynamic values, truthiness, type markers, coercion |
| `params.dfy` | `Params` | the `Param` record and the three ways to declare one |
| `behaviours.dfy` | `Behaviours` | the behaviours the engine is exercised with: `scream`, `isPlural`, `elemMatch` |
| `aliases.dfy` | `Aliases` | query-name and schema-name resolution |
| `formatting.dfy` | `Formatting` | `value()` through the enabled formatters |
| `validation.dfy` | `Validation` | the failing verdicts of a schema |
| `tokens.dfy` | `Tokens` | `select` and `sort` tokenisation |
| `parsing.dfy` | `Parsing` | input assignment, the filter, the selection and the cursor |
| `schema.dfy` | `Schemas` | the `Schema` class, its constructor, its methods and the loops behind `validate` and input assignment |
| `scenarios.dfy` | `Scenarios` | the behaviour the test suite asserts, one method per sequence of calls on a fresh schema |

## Model

| member | source | states |
|---|---|---|
| Values.TypeOf | test/menquery-schema.js:12-16 | each marker corresponds exactly to its kind of value |
| Values.FalsyValues | test/menquery-schema.js:62 | a value is falsy exactly when it is null, false, 0, NaN or the empty string |
| Values.ToStr | test/menquery-schema.js:17 | a string is itself; an integer's rendering parses back to that integer |
| Values.ToNumber | test/menquery-schema.js:18 | a number is itself; a boolean is 1 or 0; a string is finite exactly when it spells an integer, and is then that integer |
| Values.Coerce | test/menquery-schema.js:17-21 | null stays null; with no marker the value is kept; with a marker the result has the marker's type |
| Values.CoerceOwnType | test/menquery-schema.js:12-16 | coercing a value to its own type returns it unchanged |
| Values.CoerceIdempotent | test/menquery-schema.js:17-21 | coercing twice to the same marker is coercing once |
| Values.NumberStringRoundTrip | test/menquery-schema.js:17-18 | an integer coerced to String and back to Number is the same integer |
| Values.Minus | test/menquery-schema.js:133 | finite exactly when both operands are, and then their difference (NaN propagates) |
| Values.Times | test/menquery-schema.js:133 | finite exactly when both operands are, and then their product (NaN propagates) |
| Text.IntStringRoundTrip | test/menquery-schema.js:17-18 | parsing the decimal rendering of any integer gives that integer back |
| Text.Split | test/menquery-schema.js:132 | splitting always gives at least one piece |
| Text.Upper | test/menquery-schema.js:62 | upper-casing keeps the length and upper-cases each character in place |
| Text.NatToString | test/menquery-schema.js:17 | a non-empty digit string with no leading zero, except `0` itself |
| Text.IntToString | test/menquery-schema.js:17 | non-empty, with a leading `-` exactly for negative integers |
| Text.ParseInt | test/menquery-schema.js:18 | a digit string is its decimal value and `''` is 0; it fails only on a non-empty string that is not all digits |
| Text.JoinSplit | test/menquery-schema.js:132 | joining the comma-split pieces of a string gives the string back |
| Text.SplitPiecesFree | test/menquery-schema.js:132 | no piece of a split contains the separator |
| Text.UpperIdempotent | test/menquery-schema.js:61-63 | upper-casing twice is upper-casing once |
| Text.UpperHasNoLower | test/menquery-schema.js:70 | an upper-cased string has no lower-case ASCII letter |
| Params.NewParam | test/menquery-schema.js:7-21 | keeps name, marker and options and records the default; a null value takes the default; any other value is stored coerced to the declared or inferred marker, which fixes its type; with options only, the raw value is stored |
| Params.Assign | test/menquery-schema.js:17-21 | keeps name, marker, default and options; stores the value coerced to the marker, so it takes the marker's type; with no marker the value is stored as given; null stays null |
| Params.WithOptions | test/menquery-schema.js:38 | keeps name, value, marker and default; the option keys are the union; new options win and the others are kept |
| Params.DefaultIdentity | test/menquery-schema.js:12-14 | a default read back is itself, and a later value of the same type is stored unchanged |
| Params.MarkerCoercions | test/menquery-schema.js:17-21 | `123` as String is `'123'`; `'123'` as Number is 123, as Boolean is true, as RegExp is `/123/i` |
| Behaviours.Screamed | test/menquery-schema.js:61-63 | a string is upper-cased; anything else is unchanged |
| Behaviours.ScreamedIdempotent | test/menquery-schema.js:61-63 | screaming twice is screaming once |
| Behaviours.Format | test/menquery-schema.js:61-63 | with a truthy option the value is screamed, otherwise returned as is |
| Behaviours.Check | test/menquery-schema.js:77-80 | valid exactly when the option is off or the value ends in `s`; the message is the name followed by ` must be in plural form.` |
| Behaviours.Fragment | test/menquery-schema.js:97-99 | a one-key map from the field name to `{$elemMatch: {option: value}}` |
| Aliases.QueryName | test/menquery-schema.js:116-117 | a name with a string option resolves to that string, any other name to itself |
| Aliases.FindAlias | test/menquery-schema.js:114-115 | returns the first key, in insertion order, whose option is the alias, when one exists; otherwise the alias itself |
| Aliases.SchemaName | test/menquery-schema.js:114-115 | the result is the name itself or a key aliased to it, and it is such a key whenever one exists |
| Aliases.FindAliasUnique | test/menquery-schema.js:114 | when exactly one key claims an alias, that key is found |
| Aliases.SchemaOfQuery | test/menquery-schema.js:114-117 | in an unambiguous alias table, schema name of query name of a name is the name |
| Aliases.QueryOfSchema | test/menquery-schema.js:114-117 | in an unambiguous alias table, query name of schema name of an alias is the alias |
| Aliases.QueryNameIdempotent | test/menquery-schema.js:116-117 | resolving to the query side twice is resolving once |
| Aliases.SchemaNameIdempotent | test/menquery-schema.js:114-115 | resolving to the schema side twice is resolving once |
| Aliases.SingleAlias | test/menquery-schema.js:112-122 | with one alias `name: alias`, each name maps to the stated side and is fixed on its own side |
| Formatting.ApplyFormatters | test/menquery-schema.js:61-70 | the result is the value or the value upper-cased |
| Formatting.Formatted | test/menquery-schema.js:68-70 | `value()` is the stored value or the stored value upper-cased |
| Formatting.FormattersEffect | test/menquery-schema.js:59-72 | the formatted value is the screamed value when some registered formatter is enabled, else the stored value |
| Formatting.UnformattedWhenDisabled | test/menquery-schema.js:68 | with no formatter enabled, `value()` is the stored value |
| Formatting.ScreamedWhenEnabled | test/menquery-schema.js:69-70 | with an enabled formatter, `value()` is the stored value upper-cased |
| Validation.VerdictOf | test/menquery-schema.js:77-80 | an enabled `isPlural` accepts exactly the values ending in `s`; the message names the parameter |
| Validation.ParamFailures | test/menquery-schema.js:77-80 | every verdict collected for a parameter is a failure |
| Validation.Failures | test/menquery-schema.js:85-88 | every verdict collected for the schema is a failure |
| Validation.ParamFailuresEmpty | test/menquery-schema.js:85-88 | a parameter has no failures exactly when each enabled validator accepts it |
| Validation.FailuresEmpty | test/menquery-schema.js:85-88 | the schema has no failures exactly when every enabled validator of every parameter accepts |
| Validation.ValidWhenNoneEnabled | test/menquery-schema.js:85 | with no validator enabled, the schema is valid |
| Validation.InvalidWhenOneRejects | test/menquery-schema.js:86-87 | one enabled validator that rejects makes the schema invalid |
| Validation.FailuresPrefix | test/menquery-schema.js:90-91 | the failures of earlier parameters come first |
| Validation.ParamFailuresPrefix | test/menquery-schema.js:90-91 | the failures of earlier validators come first |
| Validation.FailuresStep | test/menquery-schema.js:90-91 | one more parameter appends exactly its own failures |
| Tokens.SelectMap | test/menquery-schema.js:129-132 | every selected field maps to 0 or 1 |
| Tokens.SortMap | test/menquery-schema.js:135-137 | every sorted field maps to 1 or -1 |
| Tokens.DirectionsKeys | test/menquery-schema.js:130-137 | the fields are exactly the non-empty tokens with their `-`/`+` stripped |
| Tokens.DirectionsLastWins | test/menquery-schema.js:132 | a field's direction is that of its last token |
| Tokens.SelectSortAgree | test/menquery-schema.js:132-137 | select and sort name the same fields, with sort = 2 * select - 1 |
| Tokens.FieldsHaveNoComma | test/menquery-schema.js:132 | no field name contains the separator |
| Tokens.MixedDirections | test/menquery-schema.js:132 | `-a,b,+c` gives a descending, b and c ascending |
| Tokens.SelectExamples | test/menquery-schema.js:130-132 | `''` gives {}, `a` gives {a: 1}, `-a,b,+c` gives {a: 0, b: 1, c: 1} |
| Tokens.SortExamples | test/menquery-schema.js:136-137 | `-a` gives {a: -1}, `-a,b,+c` gives {a: -1, b: 1, c: 1} |
| Tokens.SortOfName | test/menquery-schema.js:135 | the default `name` gives {name: 1} |
| Parsing.AssignAll | test/menquery-schema.js:88 | the same parameters with the same names and options; one whose query name is in the input is assigned that input value; any other is unchanged |
| Parsing.MergeParsersEntry | test/menquery-schema.js:104-106 | running the parsers on a fresh filter entry replaces just that entry |
| Parsing.PlainEntry | test/menquery-schema.js:104 | with no parser enabled, the filter entry is the plain value |
| Parsing.ParserEntry | test/menquery-schema.js:105-106 | the entry is the fragment of the last enabled parser |
| Parsing.ContributeEffect | test/menquery-schema.js:138 | a parameter with a value writes its entry under its filter key: `keywords` for `q`, its query name for any other parameter |
| Parsing.QueryKeys | test/menquery-schema.js:104-106 | the filter's keys are exactly the filter keys (`keywords` for `q`, else the query name) of the parameters that have a value and are not `select`, `page`, `limit` or `sort` |
| Parsing.QueryEntry | test/menquery-schema.js:138 | a key holds the entry of the last parameter writing it |
| Parsing.SingleContributor | test/menquery-schema.js:104 | with one parameter that has a value, the filter is that one entry |
| Parsing.SelectOf | test/menquery-schema.js:129-132 | every field maps to 0 or 1; no `select` parameter gives {} |
| Parsing.SortOf | test/menquery-schema.js:135-137 | every field maps to 1 or -1 |
| Parsing.CursorOf | test/menquery-schema.js:133-137 | skip present exactly with page and limit, limit exactly with limit; sort empty without a sort parameter |
| Parsing.CursorArithmetic | test/menquery-schema.js:133-134 | skip is (page - 1) * limit and limit passes through |
| Schemas.Declare | test/menquery-schema.js:4 | the declared parameters form a well-formed ordered map, each stored under its own name |
| Schemas.DeclareSnoc | test/menquery-schema.js:4 | declaring one more parameter puts a fresh parameter under its name unless forbidden: a new name goes last, an existing one is replaced in its place |
| Schemas.DeclareKeys | test/menquery-schema.js:4 | the declared names are the permitted names among the declarations |
| Schemas.DeclareUntouched | test/menquery-schema.js:4 | a name not being declared keeps its parameter |
| Schemas.DeclareLast | test/menquery-schema.js:4 | a permitted name holds a fresh parameter from its last declaration |
| Schemas.FirstFailure | test/menquery-schema.js:90-91 | none exactly when the parameter has no failures, else the first one |
| Schemas.FirstFailureOf | test/menquery-schema.js:90-91 | none exactly when the schema has no failures, else the first one |
| Schemas.AssignEach | test/menquery-schema.js:88 | the loop assigns exactly what `AssignAll` describes |
| Schemas.Schema.constructor | test/menquery-schema.js:4 | options from the given pairs; parameters are the built-ins then the declared ones, minus the forbidden; empty registries |
| Schemas.Schema.Get | test/menquery-schema.js:25-31 | some exactly when the name was added, and then that parameter |
| Schemas.Schema.Add | test/menquery-schema.js:6-23 | succeeds exactly when no option forbids the name, storing the new parameter under its name (a new name goes last, an existing one is replaced in its place); otherwise nothing changes |
| Schemas.Schema.AddParam | test/menquery-schema.js:8 | adopts the given parameter under its name unless forbidden |
| Schemas.Schema.Set | test/menquery-schema.js:33-40 | succeeds exactly when the name exists; assigns and merges options; never adds a name |
| Schemas.Schema.Parameter | test/menquery-schema.js:50-57 | getter without a value; setter on an existing name; `add` on a new one |
| Schemas.Schema.ValueOf | test/menquery-schema.js:68 | some exactly when the parameter exists, and then its stored value through the current formatters |
| Schemas.Schema.QueryParamName | test/menquery-schema.js:113-117 | a name with a string option resolves to that string, any other name to itself |
| Schemas.Schema.SchemaParamName | test/menquery-schema.js:113-115 | the name itself or a key aliased to it, and such a key whenever one exists |
| Schemas.Schema.AssignValue | test/menquery-schema.js:70 | assigns the value, then returns what `value()` reads |
| Schemas.Schema.GetParamOption | test/menquery-schema.js:11 | some exactly when the parameter has the option, and then its value |
| Schemas.Schema.SetParamOption | test/menquery-schema.js:69 | merges one option into an existing parameter; nothing else changes |
| Schemas.Schema.GetOption | test/menquery-schema.js:45 | some exactly when the option is set, and then its value |
| Schemas.Schema.SetOption | test/menquery-schema.js:44 | stores the option and returns the value; nothing else changes |
| Schemas.Schema.RegisterFormatter | test/menquery-schema.js:61-64 | stores and returns the formatter; nothing else changes |
| Schemas.Schema.RegisterValidator | test/menquery-schema.js:77-81 | stores and returns the validator; nothing else changes |
| Schemas.Schema.RegisterParser | test/menquery-schema.js:97-100 | stores and returns the parser; nothing else changes |
| Schemas.Schema.FormatterOf | test/menquery-schema.js:65-67 | some exactly when a formatter of that name is registered |
| Schemas.Schema.ValidatorOf | test/menquery-schema.js:82-84 | some exactly when a validator of that name is registered |
| Schemas.Schema.ParserOf | test/menquery-schema.js:101-103 | some exactly when a parser of that name is registered |
| Schemas.Schema.AssignInput | test/menquery-schema.js:88 | same parameter order; entries become `AssignAll` of the old ones |
| Schemas.Schema.Validate | test/menquery-schema.js:85-91 | ok exactly when there are no failures; the error is the first failure |
| Schemas.Schema.ValidateInput | test/menquery-schema.js:88-91 | assigns the input, then validates as `Validate` |
| Schemas.Schema.Parse | test/menquery-schema.js:126-140 | assigns the input, then returns the filter, selection and cursor of the new state |
| Scenarios.BlankParams | test/menquery-schema.js:4 | a schema with no declarations holds exactly the five built-ins |
| Scenarios.OneDeclaredParams | test/menquery-schema.js:60 | one declaration puts its parameter onto the built-ins: after them for a new name, in place of the built-in for a built-in name |
| Scenarios.AddInstance | test/menquery-schema.js:8 | adding a parameter instance returns it |
| Scenarios.AddByName | test/menquery-schema.js:9 | adding by name returns the new parameter |
| Scenarios.AddedOption | test/menquery-schema.js:11 | an option given to `add` is readable from the parameter |
| Scenarios.AddedValue | test/menquery-schema.js:10-21 | `add('test', value, spec).value()` is the value the new parameter stores |
| Scenarios.AddDefaultsScenario | test/menquery-schema.js:10-16 | a value or default string, number, boolean or pattern reads back unchanged |
| Scenarios.AddMarkersScenario | test/menquery-schema.js:17-21 | values given with a marker read back coerced to it |
| Scenarios.GetFromBlank | test/menquery-schema.js:28 | on a fresh schema, `get` finds only the built-ins |
| Scenarios.SetOnBlank | test/menquery-schema.js:36 | on a fresh schema, `set` succeeds only on the built-ins |
| Scenarios.AddThenSet | test/menquery-schema.js:34-38 | after `add`, `get` finds the parameter and `set` updates it |
| Scenarios.SetScenario | test/menquery-schema.js:38 | an option given to `set` is readable afterwards |
| Scenarios.OptionScenario | test/menquery-schema.js:42-47 | the option `false` is stored and read back, and `add` of that name fails |
| Scenarios.ParamScenario | test/menquery-schema.js:50-57 | `param` misses, adds with null, gets, then sets `'123'` |
| Scenarios.RegistriesOfBlank | test/menquery-schema.js:65 | a fresh schema has no formatter, validator or parser |
| Scenarios.ScreamHelp | test/menquery-schema.js:70 | `'help'` screamed is `'HELP'` |
| Scenarios.FormatterRegistryScenario | test/menquery-schema.js:60-71 | the registered formatter is found by the schema and by a parameter added later |
| Scenarios.FormatterValueScenario | test/menquery-schema.js:60-70 | `'123'` before the option is set; `'HELP'` after it is set and `'help'` is assigned |
| Scenarios.ValidatorRegistryScenario | test/menquery-schema.js:76-89 | the registered validator is found by the schema and by a parameter added later |
| Scenarios.PluralFailures | test/menquery-schema.js:85-88 | the example schema is valid exactly when `isPlural` is off or the value ends in `s` |
| Scenarios.CheckPlural | test/menquery-schema.js:85-87 | `validate()` agrees with `PluralFailures`, and an error is a failing verdict |
| Scenarios.ValidatePlural | test/menquery-schema.js:88 | `validate(input)` assigns, then agrees with `PluralFailures` |
| Scenarios.PluralExamples | test/menquery-schema.js:87-88 | `'help'` is not plural and `'helps'` is |
| Scenarios.ValidatorScenario | test/menquery-schema.js:75-93 | valid before the option, invalid on `'help'`, valid on `'helps'`; callback gets no error, then a failing verdict |
| Scenarios.ParserRegistryScenario | test/menquery-schema.js:96-107 | the registered parser is found by the schema and by a parameter added later |
| Scenarios.FreshQuery | test/menquery-schema.js:104-106 | with one declared parameter holding a value, the filter is its parsed entry alone |
| Scenarios.ElemMatchEntries | test/menquery-schema.js:104-106 | with no option the entry is the value; with `elemMatch: 'prop'` it is the fragment |
| Scenarios.StoredParsedQuery | test/menquery-schema.js:104-106 | parsing no input changes nothing, and the filter is plain or matched by the option |
| Scenarios.ParserQueryScenario | test/menquery-schema.js:95-109 | the filter is `{test: 'help'}`, then `{test: {$elemMatch: {prop: 'help'}}}` |
| Scenarios.NameOfBuiltin | test/menquery-schema.js:112-117 | with `page: 'p'`: `p` and `page` resolve to `page`, then `page` and `p` to `p` |
| Scenarios.NameOfDeclared | test/menquery-schema.js:118-122 | with `test: 't'`: `t` and `test` resolve to `test`, then `test` and `t` to `t` |
| Scenarios.SelectOfBlank | test/menquery-schema.js:130-132 | the selection after parsing `{select: s}` on a fresh schema is the tokenised `s` |
| Scenarios.ParseSelect | test/menquery-schema.js:130-132 | `parse({select: s}).select` is the tokenised `s` |
| Scenarios.ParseNoSelect | test/menquery-schema.js:129 | `parse().select` is {} |
| Scenarios.PageOfBlank | test/menquery-schema.js:133 | `{page, limit}` on a fresh schema gives skip (page - 1) * limit |
| Scenarios.ParsePage | test/menquery-schema.js:133 | `parse({page, limit})` gives skip (page - 1) * limit and the limit |
| Scenarios.LimitOfBlank | test/menquery-schema.js:134 | `{limit}` on a fresh schema passes the limit through |
| Scenarios.ParseLimit | test/menquery-schema.js:134 | `parse({limit}).cursor.limit` is the limit |
| Scenarios.SortOfBlank | test/menquery-schema.js:135-137 | an empty sort gives the default `name`; any other is tokenised |
| Scenarios.ParseSort | test/menquery-schema.js:135-137 | `parse({sort: s}).cursor.sort` is the default {name: 1} for `''`, else the tokenised `s` |
| Scenarios.KeywordsOfBlank | test/menquery-schema.js:128 | `{q: term}` on a fresh schema gives a filter holding just `keywords: /term/i` |
| Scenarios.ParseKeywords | test/menquery-schema.js:128 | `parse({q: term}).query` is exactly `{keywords: /term/i}` |
| Scenarios.DistanceOfFresh | test/menquery-schema.js:138 | `{distance: d}` on `schema({distance: 0})` gives a filter holding just `distance: d` |
| Scenarios.ParseAny | test/menquery-schema.js:138 | `schema({distance: 0}).parse({distance: d}).query` is exactly `{distance: d}` |
| Scenarios.DefaultParseScenario | test/menquery-schema.js:126-140 | the keywords, selections, skip, limit, sorts and filter the default parse test expects |

## Left out

- The model follows what `test/menquery-schema.js` asserts; where the tests are silent, the choices are listed below.
- Params.SpecKind: a type can only be declared as the positional marker, and a default only as the positional value. `type` and `default` keys inside an options object (`add('x', v, {type: Number, default: 5})`, `schema({x: {type: Number}})`) are not read: such a parameter has no marker and no default, so its values are stored uncoerced.
- Dates are not modelled: there is no `Date` marker and no `Date` default. Parsing a date string has no faithful counterpart here.
- `RegExp` values are the tagged `VPattern(source)`, implicitly case-insensitive. There is no regular-expression matching.
- Number coercion reads an optional sign and decimal digits, with `''` giving 0. Anything else becomes the tag `NaN`. Floating point, exponents and surrounding white space are not modelled. Nor are the other literal forms JavaScript's `Number` accepts: `'0x10'`, `'0b1'`, `'0o7'` and `'Infinity'` give numbers there, and `NaN` here.
- Behaviours are a closed set: `scream`, `isPlural` and `elemMatch`. Arbitrary user functions as formatters, validators or parsers are not modelled.
- Behaviours.Check: `toLowerCase` is ASCII-only, and a non-string value is never plural. The source would throw on a non-string.
- Behaviours.Screamed: a number, boolean or null is returned unchanged. The source's `value.toUpperCase()` would throw a TypeError on them.
- A parser option set to a falsy value (`''`, `0`, `false`) counts as unset: no parser runs and the entry is the plain value. This matches the `elemMatch ? ... : value` branch of the one parser modelled.
- Text.Upper: ASCII-only. Unicode case mapping is not modelled.
- A `Param` is a value kept inside the schema's ordered map. Two references to one parameter object, and a parameter's own `formatter`/`validator`/`parser` calls, are not modelled separately. The latter are modelled as the schema's lookup, which is what they return.
- Registration through a parameter (`param.formatter(name, fn)`) is not modelled. Only registration on the schema is modelled.
- The callback forms of `validate` are modelled as the returned first failing verdict. Asynchronous calling is not modelled.
- Schemas.Schema.Validate: checking stops at the first failure, in parameter order and then registration order. Later validators are not called, so their side effects are not modelled.
- The built-in defaults are assumptions: `page` is 1, `limit` is 30 and `sort` is `name`. The test suite pins down only `sort`'s, and the other two do not affect any asserted output.
- HTTP and route integration, middleware, and the package's re-exports are not modelled. They are adapters around the engine.

=== FILE: aliases.dfy ===
/**
 * Name aliasing between the names callers use in a query string ("query"
 * names) and the names parameters are declared under ("schema" names).
 * An alias is a schema-level option whose value is a string: the option
 * `page: 'p'` makes the schema parameter `page` answer to `p`.
 */
module Aliases {
  import opened Values
  import opened OrderedMaps

  /** `_getQueryParamName`: the alias declared for a schema name, else the name itself. */
  function QueryName(options: OMap<Value>, name: string): (q: string)
    ensures name !in options.entries || !options.entries[name].VStr? ==> q == name
    ensures name in options.entries && options.entries[name].VStr? ==> q == options.entries[name].s
  {
    if name in options.entries && options.entries[name].VStr? then options.entries[name].s else name
  }

  /** Key `k` has the option value `q`, i.e. claims `q` as its alias. */
  predicate Claims(entries: map<string, Value>, k: string, q: string) {
    k in entries && entries[k] == VStr(q)
  }

  /**
   * The first of `keys`, in insertion order, whose option is the string `q`;
   * `q` itself when there is none.
   */
  function FindAlias(keys: seq<string>, entries: map<string, Value>, q: string): (k: string)
    ensures (exists i :: 0 <= i < |keys| && Claims(entries, keys[i], q)) ==>
              exists i :: 0 <= i < |keys| && keys[i] == k && Claims(entries, k, q) &&
                forall j :: 0 <= j < i ==> !Claims(entries, keys[j], q)
    ensures !(exists i :: 0 <= i < |keys| && Claims(entries, keys[i], q)) ==> k == q
    decreases |keys|
  {
    if keys == [] then q
    else if Claims(entries, keys[0], q) then keys[0]
    else
      var k := FindAlias(keys[1..], entries, q);
      assert (exists i :: 0 <= i < |keys| && Claims(entries, keys[i], q)) ==>
             exists i :: 0 <= i < |keys[1..]| && Claims(entries, keys[1..][i], q) by {
        if exists i :: 0 <= i < |keys| && Claims(entries, keys[i], q) {
          var i :| 0 <= i < |keys| && Claims(entries, keys[i], q);
          assert keys[1..][i - 1] == keys[i];
        }
      }
      assert (exists i :: 0 <= i < |keys[1..]| && Claims(entries, keys[1..][i], q)) ==>
             exists i :: 0 <= i < |keys| && keys[i] == k && Claims(entries, k, q) &&
               forall j :: 0 <= j < i ==> !Claims(entries, keys[j], q) by {
        if exists i :: 0 <= i < |keys[1..]| && Claims(entries, keys[1..][i], q) {
          var i :| 0 <= i < |keys[1..]| && keys[1..][i] == k && Claims(entries, k, q) &&
                   forall j :: 0 <= j < i ==> !Claims(entries, keys[1..][j], q);
          assert keys[i + 1] == k;
          forall j | 0 <= j < i + 1 ensures !Claims(entries, keys[j], q) {
            if j > 0 { assert keys[j] == keys[1..][j - 1]; }
          }
        }
      }
      k
  }

  /** `_getSchemaParamName`: the schema name whose alias is `q`, else `q` itself. */
  function SchemaName(options: OMap<Value>, q: string): (k: string)
    ensures k == q || (k in options.entries && options.entries[k] == VStr(q))
    ensures IsAlias(options, q) && options.Valid() ==> k in options.entries && options.entries[k] == VStr(q)
  {
    FindAlias(options.keys, options.entries, q)
  }

  /** An alias is claimed by a key of the option map. */
  ghost predicate IsAlias(options: OMap<Value>, q: string) {
    exists k :: k in options.entries && options.entries[k] == VStr(q)
  }

  /**
   * The alias table is unambiguous: no two schema names share an alias, and no
   * alias is itself a schema name that has a different alias.
   */
  ghost predicate WellFormed(options: OMap<Value>) {
    forall j, k :: j in options.entries && k in options.entries &&
                   options.entries[j].VStr? && options.entries[k].VStr? ==>
                   (options.entries[j] == options.entries[k] ==> j == k) &&
                   (options.entries[j].s == k ==> j == k)
  }

  /** When exactly one listed key claims `q`, the search finds that key. */
  lemma {:induction false} FindAliasUnique(keys: seq<string>, entries: map<string, Value>, q: string, n: string)
    requires n in keys && n in entries && entries[n] == VStr(q)
    requires forall k :: k in entries && entries[k] == VStr(q) ==> k == n
    ensures FindAlias(keys, entries, q) == n
    decreases |keys|
  {
    if keys[0] != n {
      FindAliasUnique(keys[1..], entries, q, n);
    }
  }

  /** Resolving a schema name to its alias and back returns the schema name. */
  lemma SchemaOfQuery(options: OMap<Value>, name: string)
    requires options.Valid() && WellFormed(options)
    requires (name in options.entries && options.entries[name].VStr?) || !IsAlias(options, name)
    ensures SchemaName(options, QueryName(options, name)) == name
  {
    var e := options.entries;
    if name in e && e[name].VStr? {
      FindAliasUnique(options.keys, e, e[name].s, name);
    }
  }

  /** Resolving an alias to its schema name and back returns the alias. */
  lemma QueryOfSchema(options: OMap<Value>, q: string)
    requires options.Valid() && WellFormed(options)
    requires IsAlias(options, q) || q !in options.entries || !options.entries[q].VStr?
    ensures QueryName(options, SchemaName(options, q)) == q
  {
    var e := options.entries;
    if IsAlias(options, q) {
      var k :| k in e && e[k] == VStr(q);
      assert k in options.keys;
      var i :| 0 <= i < |options.keys| && options.keys[i] == k;
    }
  }

  /** Resolving to the query form twice is resolving once. */
  lemma QueryNameIdempotent(options: OMap<Value>, name: string)
    requires WellFormed(options)
    ensures QueryName(options, QueryName(options, name)) == QueryName(options, name)
  {
  }

  /** Resolving to the schema form twice is resolving once. */
  lemma SchemaNameIdempotent(options: OMap<Value>, q: string)
    requires options.Valid() && WellFormed(options)
    ensures SchemaName(options, SchemaName(options, q)) == SchemaName(options, q)
  {
    var e := options.entries;
    var k := SchemaName(options, q);
    if k in e && e[k] == VStr(q) {
      // `k` is aliased to `q`; if some key were aliased to `k`, it would be `k` itself.
      if exists i :: 0 <= i < |options.keys| && options.keys[i] in e && e[options.keys[i]] == VStr(k) {
        var i :| 0 <= i < |options.keys| && options.keys[i] in e && e[options.keys[i]] == VStr(k);
        assert options.keys[i] == k;
        FindAliasUnique(options.keys, e, k, k);
      }
    } else {
      assert k == q;
    }
  }

  /** An option map built by setting `pairs` in order. */
  function OptionsOf(pairs: seq<(string, Value)>): (r: OMap<Value>)
    ensures r.Valid()
    decreases |pairs|
  {
    if pairs == [] then Empty()
    else OptionsOf(pairs[..|pairs| - 1]).Put(pairs[|pairs| - 1].0, pairs[|pairs| - 1].1)
  }

  /** One parameter `name` aliased to `alias`: each name resolves to the other side. */
  lemma SingleAlias(name: string, alias: string)
    requires name != alias
    ensures var o := OptionsOf([(name, VStr(alias))]);
      SchemaName(o, alias) == name && SchemaName(o, name) == name &&
      QueryName(o, name) == alias && QueryName(o, alias) == alias
  {
    var o := OptionsOf([(name, VStr(alias))]);
    var pairs := [(name, VStr(alias))];
    assert pairs[..0] == [] && pairs[0] == (name, VStr(alias));
    assert o == OptionsOf(pairs[..0]).Put(name, VStr(alias));
    assert o.keys == [name] && o.entries == map[name := VStr(alias)];
    assert FindAlias(o.keys, o.entries, name) == name by {
      assert FindAlias([], o.entries, name) == name;
    }
  }
}

=== FILE: behaviours.dfy ===
/**
 * The named behaviours a schema can register. In menquery a registry may hold
 * arbitrary functions; here each registry holds one of a closed set of
 * concrete behaviours, looked up by the name it was registered under.
 */
module Behaviours {
  import opened Values
  import Text

  /** `scream`: upper-cases the value when its option is truthy, else leaves it as is. */
  datatype Formatter = Scream

  /** `isPlural`: valid when the option is off or the value ends in `s`/`S`. */
  datatype Validator = IsPlural

  /** `elemMatch`: wraps the value as an `$elemMatch` on the field the option names, under the parameter's query name. */
  datatype Parser = ElemMatch

  datatype Verdict = Verdict(valid: bool, message: string)

  /** Upper-cases a string value; other values pass through. */
  function Screamed(v: Value): (r: Value)
    ensures v.VStr? ==> r == VStr(Text.Upper(v.s))
    ensures !v.VStr? ==> r == v
  {
    if v.VStr? then VStr(Text.Upper(v.s)) else v
  }

  /** Screaming a screamed value changes nothing. */
  lemma ScreamedIdempotent(v: Value)
    ensures Screamed(Screamed(v)) == Screamed(v)
  {
    if v.VStr? {
      Text.UpperIdempotent(v.s);
    }
  }

  /** Calls formatter `f` with the parameter's option value and its current value. */
  function Format(f: Formatter, option: Value, v: Value): (r: Value)
    ensures Truthy(option) ==> r == Screamed(v)
    ensures !Truthy(option) ==> r == v
  {
    match f
    case Scream => if Truthy(option) then Screamed(v) else v
  }

  /** The value, lower-cased, ends in `s`. */
  predicate EndsInS(v: Value) {
    v.VStr? && |v.s| > 0 && Text.LowerChar(v.s[|v.s| - 1]) == 's'
  }

  /** Calls validator `f` with the option value, the formatted value and the parameter's name. */
  function Check(f: Validator, option: Value, v: Value, name: string): (r: Verdict)
    ensures r.valid <==> !Truthy(option) || EndsInS(v)
    ensures r.message == name + " must be in plural form."
  {
    match f
    case IsPlural => Verdict(!Truthy(option) || EndsInS(v), name + " must be in plural form.")
  }

  /** The nested operator `{$elemMatch: {[option]: value}}`. */
  function ElemMatchOf(option: Value, v: Value): Value {
    VObj(map["$elemMatch" := VObj(map[ToStr(option) := v])])
  }

  /**
   * Calls parser `f` with an enabled option value, the formatted value and the
   * external field name; the fragment is merged into the query object.
   */
  function Fragment(f: Parser, option: Value, v: Value, path: string): (r: map<string, Value>)
    ensures r.Keys == {path}
    ensures r[path] == ElemMatchOf(option, v)
  {
    match f
    case ElemMatch => map[path := ElemMatchOf(option, v)]
  }
}

=== FILE: formatting.dfy ===
/**
 * Read-time formatting of a parameter's value. A registered behaviour is
 * enabled on a parameter when the parameter has a truthy option of the same
 * name; formatters are resolved through the schema's registry each time the
 * value is read, never captured when the parameter is created.
 */
module Formatting {
  import opened Values
  import opened OrderedMaps
  import opened Params
  import opened Behaviours

  /** Behaviour `name` is registered and the parameter's same-named option is truthy. */
  predicate Enabled<B>(name: string, opts: map<string, Value>, registry: map<string, B>) {
    name in registry && name in opts && Truthy(opts[name])
  }

  /** Apply every enabled formatter, in registration order, each to the previous result. */
  function ApplyFormatters(v: Value, opts: map<string, Value>, names: seq<string>,
                           formatters: map<string, Formatter>): (r: Value)
    ensures r == v || r == Screamed(v)
    decreases |names|
  {
    if names == [] then v
    else
      var prev := ApplyFormatters(v, opts, names[..|names| - 1], formatters);
      var n := names[|names| - 1];
      ScreamedIdempotent(v);
      if Enabled(n, opts, formatters) then Format(formatters[n], opts[n], prev) else prev
  }

  /** `param.value()`: the stored value as the schema's current formatters present it. */
  function Formatted(p: Param, formatters: OMap<Formatter>): (r: Value)
    ensures r == p.value || r == Screamed(p.value)
  {
    ApplyFormatters(p.value, p.options, formatters.keys, formatters.entries)
  }

  /**
   * Formatting changes the value exactly when some registered formatter is
   * enabled on the parameter, and then the value is upper-cased.
   */
  lemma {:induction false} FormattersEffect(v: Value, opts: map<string, Value>, names: seq<string>,
                                            formatters: map<string, Formatter>)
    ensures ApplyFormatters(v, opts, names, formatters) ==
            if exists i :: 0 <= i < |names| && Enabled(names[i], opts, formatters)
            then Screamed(v) else v
    decreases |names|
  {
    if names != [] {
      var init := names[..|names| - 1];
      var n := names[|names| - 1];
      FormattersEffect(v, opts, init, formatters);
      var before := exists i :: 0 <= i < |init| && Enabled(init[i], opts, formatters);
      var after := exists i :: 0 <= i < |names| && Enabled(names[i], opts, formatters);
      if before {
        var i :| 0 <= i < |init| && Enabled(init[i], opts, formatters);
        assert names[i] == init[i];
        ScreamedIdempotent(v);
      }
      if after && !Enabled(n, opts, formatters) {
        var i :| 0 <= i < |names| && Enabled(names[i], opts, formatters);
        assert init[i] == names[i];
      }
    }
  }

  /** With no formatter enabled, `value()` is the stored value. */
  lemma UnformattedWhenDisabled(p: Param, formatters: OMap<Formatter>)
    requires forall n :: n in formatters.entries && n in p.options ==> !Truthy(p.options[n])
    ensures Formatted(p, formatters) == p.value
  {
    FormattersEffect(p.value, p.options, formatters.keys, formatters.entries);
  }

  /** With a formatter enabled, `value()` is the stored value upper-cased. */
  lemma ScreamedWhenEnabled(p: Param, formatters: OMap<Formatter>, name: string)
    requires formatters.Valid()
    requires name in formatters.entries && name in p.options && Truthy(p.options[name])
    ensures Formatted(p, formatters) == Screamed(p.value)
  {
    var i :| 0 <= i < |formatters.keys| && formatters.keys[i] == name;
    FormattersEffect(p.value, p.options, formatters.keys, formatters.entries);
  }
}

=== FILE: ordered_map.dfy ===
/**
 * An insertion-ordered dictionary from names to values: the shape of a
 * JavaScript object used as a map (keys enumerate in first-insertion order,
 * re-assigning a key keeps its position).
 */
module OrderedMaps {
  import opened Wrappers

  datatype OMap<V> = OMap(keys: seq<string>, entries: map<string, V>) {

    /** Keys are listed once each, and exactly the keys of `entries` are listed. */
    ghost predicate Valid() {
      && (forall i, j :: 0 <= i < j < |keys| ==> keys[i] != keys[j])
      && (forall k :: k in entries <==> k in keys)
    }

    function Get(k: string): (r: Option<V>)
      ensures r.Some? <==> k in entries
      ensures r.Some? ==> r.value == entries[k]
    {
      if k in entries then Some(entries[k]) else None
    }

    /** Assignment `obj[k] = v`: a new key goes last, an existing key keeps its place. */
    function Put(k: string, v: V): (r: OMap<V>)
      requires Valid()
      ensures r.Valid()
      ensures r.entries == entries[k := v]
      ensures k in entries ==> r.keys == keys
      ensures k !in entries ==> r.keys == keys + [k]
    {
      if k in entries then OMap(keys, entries[k := v]) else OMap(keys + [k], entries[k := v])
    }
  }

  function Empty<V>(): (r: OMap<V>)
    ensures r.Valid() && r.keys == [] && r.entries == map[]
  {
    OMap([], map[])
  }
}

=== FILE: params.dfy ===
/**
 * A schema parameter: a named value slot with its default, its type marker
 * and its own option map. Parameters live inside their schema; the operations
 * here are the value-level halves of `Param`'s constructor, its `value(x)`
 * setter and its `option(name, value)` setter.
 */
module Params {
  import opened Wrappers
  import opened Values

  /**
   * The third argument of `add(name, value, ...)` (and the value of an entry
   * in the schema constructor's parameter object): a type marker such as
   * `String`, a primitive default such as `'123'`, or an object of options.
   */
  datatype ParamSpec =
    | Marker(t: TypeMarker)
    | Default(d: Value)
    | Options(opts: map<string, Value>)

  datatype Param = Param(
    name: string,
    value: Value,                    // the stored (coerced, unformatted) value
    defaultValue: Value,
    kind: Option<TypeMarker>,        // declared marker, else the default's own type
    options: map<string, Value>)

  function SpecDefault(spec: ParamSpec): Value {
    if spec.Default? then spec.d else VNull
  }

  function SpecKind(spec: ParamSpec): Option<TypeMarker> {
    match spec
    case Marker(t) => Some(t)
    case Default(d) => TypeOf(d)
    case Options(_) => None
  }

  function SpecOptions(spec: ParamSpec): map<string, Value> {
    if spec.Options? then spec.opts else map[]
  }

  /** `new Param(name, value, spec)`: a missing value falls back to the default. */
  function NewParam(name: string, raw: Value, spec: ParamSpec): (p: Param)
    ensures p.name == name && p.kind == SpecKind(spec) && p.options == SpecOptions(spec)
    ensures raw == VNull ==> p.value == SpecDefault(spec)
    ensures raw != VNull && spec.Marker? ==> TypeOf(p.value) == Some(spec.t)
    ensures raw != VNull && spec.Options? ==> p.value == raw
    ensures raw != VNull ==> p.value == Coerce(SpecKind(spec), raw)
    ensures p.defaultValue == SpecDefault(spec)
  {
    var kind := SpecKind(spec);
    Param(name, if raw == VNull then SpecDefault(spec) else Coerce(kind, raw),
          SpecDefault(spec), kind, SpecOptions(spec))
  }

  /** The `value(x)` setter: store `x` coerced to the parameter's type. */
  function Assign(p: Param, raw: Value): (q: Param)
    ensures q.name == p.name && q.kind == p.kind && q.options == p.options
    ensures q.defaultValue == p.defaultValue
    ensures p.kind.Some? && raw != VNull ==> TypeOf(q.value) == p.kind
    ensures p.kind.None? ==> q.value == raw
    ensures raw == VNull ==> q.value == VNull
    ensures q.value == Coerce(p.kind, raw)
  {
    p.(value := Coerce(p.kind, raw))
  }

  /** Merging an options object into the parameter's options (later keys win). */
  function WithOptions(p: Param, opts: map<string, Value>): (q: Param)
    ensures q.name == p.name && q.value == p.value && q.kind == p.kind
    ensures q.defaultValue == p.defaultValue
    ensures q.options.Keys == p.options.Keys + opts.Keys
    ensures forall k :: k in opts ==> q.options[k] == opts[k]
    ensures forall k :: k in p.options && k !in opts ==> q.options[k] == p.options[k]
  {
    p.(options := p.options + opts)
  }

  /**
   * With no type marker, a default of any primitive type reads back
   * unchanged, and later assignments of the same type are kept as given.
   */
  lemma DefaultIdentity(name: string, d: Value, v: Value)
    requires TypeOf(d).Some? && TypeOf(v) == TypeOf(d)
    ensures NewParam(name, VNull, Default(d)).value == d
    ensures Assign(NewParam(name, VNull, Default(d)), v).value == v
  {
    CoerceOwnType(v);
  }

  /** The four explicit-marker coercions `add` performs on assignment. */
  lemma MarkerCoercions()
    ensures NewParam("test", VNum(Finite(123)), Marker(StringType)).value == VStr("123")
    ensures NewParam("test", VStr("123"), Marker(NumberType)).value == VNum(Finite(123))
    ensures NewParam("test", VStr("123"), Marker(BooleanType)).value == VBool(true)
    ensures NewParam("test", VStr("123"), Marker(RegExpType)).value == VPattern("123")
  {
    assert Text.NatToString(123) == "123" by {
      assert Text.NatToString(12) == "12" by {
        assert Text.NatToString(1) == "1";
      }
    }
    assert Text.DigitsValue("123") == 123 by {
      assert "123"[..2] == "12";
      assert "12"[..1] == "1";
      assert "1"[..0] == "";
    }
  }
}

=== FILE: parsing.dfy ===
/**
 * The parse pipeline: input assignment, then bucketing of every parameter's
 * formatted value into the filter (`query`), the projection (`select`) and
 * the cursor (`skip`, `limit`, `sort`).
 */
module Parsing {
  import opened Wrappers
  import opened Values
  import opened OrderedMaps
  import opened Params
  import opened Behaviours
  import opened Formatting
  import opened Aliases
  import opened Tokens

  // The built-in parameters every schema declares.
  const Q := "q"
  const SELECT := "select"
  const PAGE := "page"
  const LIMIT := "limit"
  const SORT := "sort"
  /** The filter field that receives the `q` search pattern. */
  const KEYWORDS := "keywords"

  datatype Cursor = Cursor(skip: Option<Number>, limit: Option<Number>, sort: map<string, int>)

  datatype Parsed = Parsed(query: map<string, Value>, select: map<string, int>, cursor: Cursor)

  // ------------------------------------------------------------- assignment

  /** Assign the input's value under the parameter's query name, if the input has one. */
  function AssignFromInput(p: Param, name: string, input: map<string, Value>, options: OMap<Value>): Param {
    var q := QueryName(options, name);
    if q in input then Assign(p, input[q]) else p
  }

  /** Every parameter after assignment from `input`. */
  function AssignAll(params: map<string, Param>, input: map<string, Value>, options: OMap<Value>): (r: map<string, Param>)
    ensures r.Keys == params.Keys
    ensures forall n :: n in params ==> r[n].name == params[n].name && r[n].options == params[n].options
    ensures forall n :: n in params && QueryName(options, n) !in input ==> r[n] == params[n]
    ensures forall n :: n in params && QueryName(options, n) in input ==>
              r[n] == Assign(params[n], input[QueryName(options, n)])
  {
    map n | n in params :: AssignFromInput(params[n], n, input, options)
  }

  // ----------------------------------------------------------------- parsers

  /** Merge the fragment of every enabled parser, in registration order, into `query`. */
  function MergeParsers(query: map<string, Value>, v: Value, opts: map<string, Value>, names: seq<string>,
                        parsers: map<string, Parser>, path: string): map<string, Value>
    decreases |names|
  {
    if names == [] then query
    else
      var acc := MergeParsers(query, v, opts, names[..|names| - 1], parsers, path);
      var n := names[|names| - 1];
      if Enabled(n, opts, parsers) then acc + Fragment(parsers[n], opts[n], v, path) else acc
  }

  /** The filter entry a parameter ends with: the last enabled parser's operator, else the plain value. */
  function ParsedEntry(v: Value, opts: map<string, Value>, names: seq<string>, parsers: map<string, Parser>): Value
    decreases |names|
  {
    if names == [] then v
    else
      var n := names[|names| - 1];
      if Enabled(n, opts, parsers) then ElemMatchOf(opts[n], v)
      else ParsedEntry(v, opts, names[..|names| - 1], parsers)
  }

  /** Merging parser fragments touches only the parameter's own field. */
  lemma {:induction false} MergeParsersEntry(query: map<string, Value>, v: Value, opts: map<string, Value>,
                                             names: seq<string>, parsers: map<string, Parser>, path: string)
    ensures MergeParsers(query[path := v], v, opts, names, parsers, path) ==
            query[path := ParsedEntry(v, opts, names, parsers)]
    decreases |names|
  {
    if names != [] {
      MergeParsersEntry(query, v, opts, names[..|names| - 1], parsers, path);
    }
  }

  /** With no parser enabled, the entry is the plain value. */
  lemma {:induction false} PlainEntry(v: Value, opts: map<string, Value>, names: seq<string>, parsers: map<string, Parser>)
    requires forall i :: 0 <= i < |names| ==> !Enabled(names[i], opts, parsers)
    ensures ParsedEntry(v, opts, names, parsers) == v
    decreases |names|
  {
    if names != [] {
      var init := names[..|names| - 1];
      assert forall i :: 0 <= i < |init| ==> init[i] == names[i];
      PlainEntry(v, opts, init, parsers);
    }
  }

  /** With parser `names[j]` enabled and none after it, the entry is its `$elemMatch` operator. */
  lemma {:induction false} ParserEntry(v: Value, opts: map<string, Value>, names: seq<string>,
                                       parsers: map<string, Parser>, j: nat)
    requires j < |names| && Enabled(names[j], opts, parsers)
    requires forall i :: j < i < |names| ==> !Enabled(names[i], opts, parsers)
    ensures ParsedEntry(v, opts, names, parsers) == ElemMatchOf(opts[names[j]], v)
    decreases |names|
  {
    if j < |names| - 1 {
      var init := names[..|names| - 1];
      assert forall i :: 0 <= i < |init| ==> init[i] == names[i];
      ParserEntry(v, opts, init, parsers, j);
    }
  }

  // ------------------------------------------------------------------- query

  /** Built-ins other than `q` feed `select` and `cursor`, not the filter. */
  predicate InQuery(n: string) {
    n != SELECT && n != PAGE && n != LIMIT && n != SORT
  }

  /** The filter field a parameter writes: `keywords` for `q`, its query name otherwise. */
  function QueryKey(options: OMap<Value>, n: string): string {
    if n == Q then KEYWORDS else QueryName(options, n)
  }

  /** Add one parameter's entry to the filter; a parameter without a value adds nothing. */
  function Contribute(query: map<string, Value>, n: string, p: Param, options: OMap<Value>,
                      formatters: OMap<Formatter>, parsers: OMap<Parser>): map<string, Value> {
    var v := Formatted(p, formatters);
    if v == VNull then query
    else if n == Q then query[KEYWORDS := v]
    else
      var path := QueryName(options, n);
      MergeParsers(query[path := v], v, p.options, parsers.keys, parsers.entries, path)
  }

  /** The filter built from the parameters in `order`. */
  function QueryOf(order: seq<string>, params: map<string, Param>, options: OMap<Value>,
                   formatters: OMap<Formatter>, parsers: OMap<Parser>): map<string, Value>
    decreases |order|
  {
    if order == [] then map[]
    else
      var q := QueryOf(order[..|order| - 1], params, options, formatters, parsers);
      var n := order[|order| - 1];
      if n in params && InQuery(n) then Contribute(q, n, params[n], options, formatters, parsers) else q
  }

  /** Parameter `n` writes a filter entry. */
  predicate Contributes(n: string, params: map<string, Param>, formatters: OMap<Formatter>) {
    n in params && InQuery(n) && Formatted(params[n], formatters) != VNull
  }

  /** The entry parameter `n` writes. */
  function EntryOf(n: string, p: Param, formatters: OMap<Formatter>, parsers: OMap<Parser>): Value {
    var v := Formatted(p, formatters);
    if n == Q then v else ParsedEntry(v, p.options, parsers.keys, parsers.entries)
  }

  lemma ContributeEffect(query: map<string, Value>, n: string, p: Param, options: OMap<Value>,
                         formatters: OMap<Formatter>, parsers: OMap<Parser>)
    requires Formatted(p, formatters) != VNull
    ensures Contribute(query, n, p, options, formatters, parsers) ==
            query[QueryKey(options, n) := EntryOf(n, p, formatters, parsers)]
  {
    if n != Q {
      MergeParsersEntry(query, Formatted(p, formatters), p.options, parsers.keys, parsers.entries,
                        QueryName(options, n));
    }
  }

  /** The filter has a field exactly for the parameters that write one. */
  lemma {:induction false} QueryKeys(order: seq<string>, params: map<string, Param>, options: OMap<Value>,
                                     formatters: OMap<Formatter>, parsers: OMap<Parser>, k: string)
    ensures k in QueryOf(order, params, options, formatters, parsers) <==>
            exists i :: 0 <= i < |order| && Contributes(order[i], params, formatters) && QueryKey(options, order[i]) == k
    decreases |order|
  {
    if order != [] {
      var init := order[..|order| - 1];
      var n := order[|order| - 1];
      QueryKeys(init, params, options, formatters, parsers, k);
      if Contributes(n, params, formatters) {
        ContributeEffect(QueryOf(init, params, options, formatters, parsers), n, params[n], options, formatters, parsers);
      }
      if exists i :: 0 <= i < |order| && Contributes(order[i], params, formatters) && QueryKey(options, order[i]) == k {
        var i :| 0 <= i < |order| && Contributes(order[i], params, formatters) && QueryKey(options, order[i]) == k;
        if i < |init| {
          assert init[i] == order[i];
        }
      }
      if exists i :: 0 <= i < |init| && Contributes(init[i], params, formatters) && QueryKey(options, init[i]) == k {
        var i :| 0 <= i < |init| && Contributes(init[i], params, formatters) && QueryKey(options, init[i]) == k;
        assert order[i] == init[i];
      }
    }
  }

  /** A field holds the entry of the last parameter that writes it. */
  lemma {:induction false} QueryEntry(order: seq<string>, params: map<string, Param>, options: OMap<Value>,
                                      formatters: OMap<Formatter>, parsers: OMap<Parser>, i: nat)
    requires i < |order| && Contributes(order[i], params, formatters)
    requires forall j :: i < j < |order| && Contributes(order[j], params, formatters) ==>
               QueryKey(options, order[j]) != QueryKey(options, order[i])
    ensures QueryKey(options, order[i]) in QueryOf(order, params, options, formatters, parsers)
    ensures QueryOf(order, params, options, formatters, parsers)[QueryKey(options, order[i])] ==
            EntryOf(order[i], params[order[i]], formatters, parsers)
    decreases |order|
  {
    var init := order[..|order| - 1];
    var n := order[|order| - 1];
    if i < |order| - 1 {
      assert init[i] == order[i];
      QueryEntry(init, params, options, formatters, parsers, i);
      if Contributes(n, params, formatters) {
        ContributeEffect(QueryOf(init, params, options, formatters, parsers), n, params[n], options, formatters, parsers);
      }
    } else {
      ContributeEffect(QueryOf(init, params, options, formatters, parsers), n, params[n], options, formatters, parsers);
    }
  }

  /** When one parameter alone writes the filter, the filter is that one field. */
  lemma SingleContributor(order: seq<string>, params: map<string, Param>, options: OMap<Value>,
                          formatters: OMap<Formatter>, parsers: OMap<Parser>, n: string)
    requires forall i, j :: 0 <= i < j < |order| ==> order[i] != order[j]
    requires n in order && Contributes(n, params, formatters)
    requires forall i :: 0 <= i < |order| && Contributes(order[i], params, formatters) ==> order[i] == n
    ensures QueryOf(order, params, options, formatters, parsers) ==
            map[QueryKey(options, n) := EntryOf(n, params[n], formatters, parsers)]
  {
    var i :| 0 <= i < |order| && order[i] == n;
    QueryEntry(order, params, options, formatters, parsers, i);
    var query := QueryOf(order, params, options, formatters, parsers);
    forall k ensures k in query <==> k == QueryKey(options, n) {
      QueryKeys(order, params, options, formatters, parsers, k);
    }
  }

  // --------------------------------------------------------- select / cursor

  function StringOf(v: Value): string {
    if v.VStr? then v.s else ""
  }

  /** The projection: the tokens of `select`, or nothing. */
  function SelectOf(params: map<string, Param>, formatters: OMap<Formatter>): (r: map<string, int>)
    ensures forall k :: k in r ==> r[k] == 0 || r[k] == 1
    ensures SELECT !in params ==> r == map[]
  {
    if SELECT in params then SelectMap(StringOf(Formatted(params[SELECT], formatters))) else map[]
  }

  /** The sort order: the tokens of `sort`, or of its default when it is empty. */
  function SortOf(p: Param, formatters: OMap<Formatter>): (r: map<string, int>)
    ensures forall k :: k in r ==> r[k] == 1 || r[k] == -1
  {
    var s := StringOf(Formatted(p, formatters));
    if s == "" then SortMap(StringOf(p.defaultValue)) else SortMap(s)
  }

  /** `skip = (page - 1) * limit` in JavaScript arithmetic; `limit` passes through. */
  function CursorOf(params: map<string, Param>, formatters: OMap<Formatter>): (c: Cursor)
    ensures c.skip.Some? <==> PAGE in params && LIMIT in params
    ensures c.limit.Some? <==> LIMIT in params
    ensures SORT !in params ==> c.sort == map[]
  {
    var page := if PAGE in params then Some(ToNumber(Formatted(params[PAGE], formatters))) else None;
    var limit := if LIMIT in params then Some(ToNumber(Formatted(params[LIMIT], formatters))) else None;
    Cursor(if page.Some? && limit.Some? then Some(Times(Minus(page.value, Finite(1)), limit.value)) else None,
           limit,
           if SORT in params then SortOf(params[SORT], formatters) else map[])
  }

  /** The result of `parse` on the (already assigned) parameters. */
  function ParseOf(params: OMap<Param>, options: OMap<Value>, formatters: OMap<Formatter>,
                   parsers: OMap<Parser>): Parsed {
    Parsed(QueryOf(params.keys, params.entries, options, formatters, parsers),
           SelectOf(params.entries, formatters),
           CursorOf(params.entries, formatters))
  }

  /** Page `p` of `l` results starts after `(p - 1) * l` results. */
  lemma CursorArithmetic(params: map<string, Param>, formatters: OMap<Formatter>, p: int, l: int)
    requires PAGE in params && LIMIT in params
    requires Formatted(params[PAGE], formatters) == VNum(Finite(p))
    requires Formatted(params[LIMIT], formatters) == VNum(Finite(l))
    ensures CursorOf(params, formatters).skip == Some(Finite((p - 1) * l))
    ensures CursorOf(params, formatters).limit == Some(Finite(l))
  {
  }

}

=== FILE: scenarios.dfy ===
/**
 * The documented behaviour of the schema, block by block: each method builds
 * fresh schemas, drives them through the calls of one usage scenario and
 * returns what those calls answer; its postcondition is the expected answer.
 */
module Scenarios {
  import opened Wrappers
  import opened Values
  import opened OrderedMaps
  import opened Params
  import opened Behaviours
  import opened Formatting
  import opened Aliases
  import opened Validation
  import opened Parsing
  import opened Schemas
  import opened Tokens

  /** The names of the built-in parameters. */
  predicate Builtin(name: string) {
    name == Q || name == SELECT || name == PAGE || name == LIMIT || name == SORT
  }

  /** The names the scenarios declare are not built-in names. */
  lemma NotBuiltin()
    ensures !Builtin("test") && !Builtin("distance")
  {
    assert "test"[0] != "page"[0] && "test"[0] != "sort"[0];
  }

  /** The built-in parameters, and `extra`, as a fresh schema declares them. */
  ghost predicate FreshParams(ps: OMap<Param>, extra: map<string, Param>) {
    && ps.entries.Keys == {Q, SELECT, PAGE, LIMIT, SORT} + extra.Keys
    && (forall k :: k in extra ==> ps.entries[k] == extra[k])
    && ps.entries[Q] == NewParam(Q, VNull, Marker(RegExpType))
    && ps.entries[SELECT] == NewParam(SELECT, VNull, Default(VStr("")))
    && ps.entries[PAGE] == NewParam(PAGE, VNull, Default(VNum(Finite(1))))
    && ps.entries[LIMIT] == NewParam(LIMIT, VNull, Default(VNum(Finite(30))))
    && ps.entries[SORT] == NewParam(SORT, VNull, Default(VStr("name")))
  }

  /** A name is a parameter of a fresh schema exactly when it is a built-in or declared. */
  lemma FreshKey(ps: OMap<Param>, extra: map<string, Param>, k: string)
    requires FreshParams(ps, extra)
    ensures k in ps.entries <==> Builtin(k) || k in extra
  {
  }

  /** The built-ins of a fresh schema carry no options. */
  lemma FreshOptions(ps: OMap<Param>, extra: map<string, Param>)
    requires FreshParams(ps, extra)
    ensures forall k :: k in ps.entries && k !in extra ==> ps.entries[k].options == map[]
  {
    forall k | k in ps.entries && k !in extra
      ensures ps.entries[k].options == map[]
    {
      FreshKey(ps, extra, k);
    }
  }

  /** The state of a schema built with no options and with `extra` as its only declared parameter, if any. */
  ghost predicate Fresh(s: Schema, extra: map<string, Param>)
    reads s
  {
    && s.Valid()
    && s.options == Empty() && s.formatters == Empty() && s.validators == Empty() && s.parsers == Empty()
    && FreshParams(s.params, extra)
  }

  ghost predicate Blank(s: Schema)
    reads s
  {
    Fresh(s, map[])
  }

  /** The built-in parameters as a map. */
  function BuiltinMap(): map<string, Param> {
    map[Q := NewParam(Q, VNull, Marker(RegExpType)),
        SELECT := NewParam(SELECT, VNull, Default(VStr(""))),
        PAGE := NewParam(PAGE, VNull, Default(VNum(Finite(1)))),
        LIMIT := NewParam(LIMIT, VNull, Default(VNum(Finite(30)))),
        SORT := NewParam(SORT, VNull, Default(VStr("name")))]
  }

  lemma BuiltinMapFresh(ps: OMap<Param>)
    requires ps.entries == BuiltinMap()
    ensures FreshParams(ps, map[])
  {
  }

  /** With no options, declaring one more parameter stores it. */
  lemma DeclareEntriesSnoc(specs: seq<(string, ParamSpec)>, x: (string, ParamSpec))
    ensures Declare(Empty(), specs + [x], Empty()).entries ==
            Declare(Empty(), specs, Empty()).entries[x.0 := NewParam(x.0, VNull, x.1)]
  {
    DeclareSnoc(Empty(), specs, x, Empty());
  }

  /** The built-ins declared on an empty schema with no options. */
  lemma BlankParams()
    ensures Declare(Empty(), BuiltinSpecs(), Empty()).entries == BuiltinMap()
  {
    var b := BuiltinSpecs();
    var s0: seq<(string, ParamSpec)> := [];
    var s1 := s0 + [b[0]];
    var s2 := s1 + [b[1]];
    var s3 := s2 + [b[2]];
    var s4 := s3 + [b[3]];
    var s5 := s4 + [b[4]];
    assert s5 == b;
    DeclareEntriesSnoc(s0, b[0]);
    DeclareEntriesSnoc(s1, b[1]);
    DeclareEntriesSnoc(s2, b[2]);
    DeclareEntriesSnoc(s3, b[3]);
    DeclareEntriesSnoc(s4, b[4]);
    assert Declare(Empty(), s0, Empty()).entries == map[];
  }

  /** Storing a non-built-in parameter adds its name to a fresh schema's names. */
  lemma FreshPutKeys(ps: OMap<Param>, extra: map<string, Param>, name: string, p: Param)
    requires ps.Valid() && FreshParams(ps, extra) && !Builtin(name) && extra.Keys <= {name}
    ensures ps.Put(name, p).entries.Keys == {Q, SELECT, PAGE, LIMIT, SORT} + map[name := p].Keys
  {
  }

  /** Storing a non-built-in parameter leaves a fresh schema's built-ins as they were. */
  lemma FreshPutBuiltins(ps: OMap<Param>, extra: map<string, Param>, name: string, p: Param)
    requires ps.Valid() && FreshParams(ps, extra) && !Builtin(name)
    ensures ps.Put(name, p).entries[Q] == NewParam(Q, VNull, Marker(RegExpType))
    ensures ps.Put(name, p).entries[SELECT] == NewParam(SELECT, VNull, Default(VStr("")))
    ensures ps.Put(name, p).entries[PAGE] == NewParam(PAGE, VNull, Default(VNum(Finite(1))))
    ensures ps.Put(name, p).entries[LIMIT] == NewParam(LIMIT, VNull, Default(VNum(Finite(30))))
    ensures ps.Put(name, p).entries[SORT] == NewParam(SORT, VNull, Default(VStr("name")))
  {
  }

  /** Adding one non-built-in parameter to the fresh built-ins. */
  lemma FreshPut(ps: OMap<Param>, name: string, p: Param)
    requires ps.Valid() && FreshParams(ps, map[]) && !Builtin(name)
    ensures FreshParams(ps.Put(name, p), map[name := p])
  {
    FreshPutKeys(ps, map[], name, p);
    FreshPutBuiltins(ps, map[], name, p);
  }

  /** Declaring one more parameter after the built-ins stores it last. */
  lemma OneDeclaredParams(name: string, spec: ParamSpec)
    ensures Declare(Empty(), BuiltinSpecs() + [(name, spec)], Empty()) ==
            Declare(Empty(), BuiltinSpecs(), Empty()).Put(name, NewParam(name, VNull, spec))
  {
    DeclareSnoc(Empty(), BuiltinSpecs(), (name, spec), Empty());
  }

  /** `schema()`. */
  method NewBlank() returns (s: Schema)
    ensures fresh(s) && Blank(s)
  {
    s := new Schema([], []);
    assert BuiltinSpecs() + [] == BuiltinSpecs();
    BlankParams();
    BuiltinMapFresh(s.params);
  }

  /** `schema({name: spec})`. */
  method NewDeclaring(name: string, spec: ParamSpec) returns (s: Schema)
    requires !Builtin(name)
    ensures fresh(s) && Fresh(s, map[name := NewParam(name, VNull, spec)])
  {
    s := new Schema([(name, spec)], []);
    BlankParams();
    BuiltinMapFresh(Declare(Empty(), BuiltinSpecs(), Empty()));
    OneDeclaredParams(name, spec);
    FreshPut(Declare(Empty(), BuiltinSpecs(), Empty()), name, NewParam(name, VNull, spec));
  }

  // ------------------------------------------------------------------- add

  /** `schema().add(param)` adopts the parameter as given. */
  method AddInstance(p: Param) returns (r: Option<Param>)
    ensures r == Some(p)
  {
    var s := NewBlank();
    r := s.AddParam(p);
  }

  /** `schema().add(name, value, spec)` stores the new parameter. */
  method AddByName(name: string, raw: Value, spec: ParamSpec) returns (r: Option<Param>)
    ensures r == Some(NewParam(name, raw, spec))
  {
    var s := NewBlank();
    r := s.Add(name, raw, spec);
  }

  /** `schema().add(name, null, {key: v}).option(key)` reads the option back. */
  method AddedOption(name: string, key: string, v: Value) returns (r: Option<Value>)
    ensures r == Some(v)
  {
    var s := NewBlank();
    var _ := s.Add(name, VNull, Options(map[key := v]));
    r := s.GetParamOption(name, key);
  }

  /** `schema().add('test', raw, spec).value()`. */
  method AddedValue(raw: Value, spec: ParamSpec) returns (v: Option<Value>)
    ensures v == Some(NewParam("test", raw, spec).value)
  {
    var s := NewBlank();
    var _ := s.Add("test", raw, spec);
    v := s.ValueOf("test");
  }

  /** A value given to `add` is kept; with no value the default is read back. */
  method AddDefaultsScenario() returns (values: seq<Option<Value>>)
    ensures values == [Some(VStr("123")),
                       Some(VStr("123")), Some(VNum(Finite(123))), Some(VBool(true)), Some(VPattern("123"))]
  {
    var a := AddedValue(VStr("123"), Options(map[]));
    var b := AddedValue(VNull, Default(VStr("123")));
    var c := AddedValue(VNull, Default(VNum(Finite(123))));
    var d := AddedValue(VNull, Default(VBool(true)));
    var e := AddedValue(VNull, Default(VPattern("123")));
    values := [a, b, c, d, e];
  }

  /** A type marker coerces the value given to `add`. */
  method AddMarkersScenario() returns (values: seq<Option<Value>>)
    ensures values == [Some(VStr("123")), Some(VNum(Finite(123))), Some(VBool(true)), Some(VPattern("123"))]
  {
    MarkerCoercions();
    var f := AddedValue(VNum(Finite(123)), Marker(StringType));
    var g := AddedValue(VStr("123"), Marker(NumberType));
    var h := AddedValue(VStr("123"), Marker(BooleanType));
    var i := AddedValue(VStr("123"), Marker(RegExpType));
    values := [f, g, h, i];
  }

  // ----------------------------------------------------- get / set / param

  /** A fresh schema has exactly the built-in parameters. */
  method GetFromBlank(name: string) returns (r: Option<Param>)
    ensures r.Some? <==> Builtin(name)
  {
    var s := NewBlank();
    FreshKey(s.params, map[], name);
    r := s.Get(name);
  }

  /** `set` on a fresh schema succeeds exactly for the built-ins: it never creates a parameter. */
  method SetOnBlank(name: string, raw: Value) returns (r: Option<Param>)
    ensures r.Some? <==> Builtin(name)
  {
    var s := NewBlank();
    FreshKey(s.params, map[], name);
    r := s.Set(name, raw, map[]);
  }

  /** A parameter added to a schema is found there, and `set` then assigns it and merges options. */
  method AddThenSet(name: string, raw: Value, opts: map<string, Value>) returns (got: Option<Param>, r: Option<Param>)
    ensures got == Some(NewParam(name, VNull, Options(map[])))
    ensures r == Some(WithOptions(Assign(NewParam(name, VNull, Options(map[])), raw), opts))
  {
    var s := NewBlank();
    var _ := s.Add(name, VNull, Options(map[]));
    got := s.Get(name);
    r := s.Set(name, raw, opts);
  }

  /** `mySchema.set('test', '123', {test: true}).option('test')`. */
  method SetScenario() returns (withOption: Option<Value>)
    ensures withOption == Some(VBool(true))
  {
    var _, r := AddThenSet("test", VStr("123"), map["test" := VBool(true)]);
    withOption := if "test" in r.value.options then Some(r.value.options["test"]) else None;
  }

  /** An option set to `false` reads back and forbids the parameter of that name. */
  method OptionScenario() returns (stored: Value, got: Option<Value>, added: Option<Param>)
    ensures stored == VBool(false) && got == Some(VBool(false)) && added.None?
  {
    var s := NewBlank();
    stored := s.SetOption("test", VBool(false));
    got := s.GetOption("test");
    added := s.Add("test", VNull, Options(map[]));
  }

  /** `param('test')` on a fresh schema finds nothing; `param('test', null)` adds it. */
  method ParamAdd(s: Schema) returns (before: Option<Param>, added: Option<Param>)
    requires Blank(s)
    modifies s
    ensures s.Valid() && "test" in s.params.entries
    ensures s.params.entries["test"] == NewParam("test", VNull, Options(map[]))
    ensures before.None? && added == Some(NewParam("test", VNull, Options(map[])))
  {
    FreshKey(s.params, map[], "test");
    before := s.Parameter("test", None, Options(map[]));
    added := s.Parameter("test", Some(VNull), Options(map[]));
  }

  /** `param('test')` then finds it, and `param('test', '123')` assigns it. */
  method ParamSet(s: Schema) returns (after: Option<Param>, updated: Option<Param>)
    requires s.Valid() && "test" in s.params.entries
    requires s.params.entries["test"] == NewParam("test", VNull, Options(map[]))
    modifies s
    ensures after == Some(NewParam("test", VNull, Options(map[])))
    ensures updated.Some? && updated.value.value == VStr("123")
  {
    after := s.Parameter("test", None, Options(map[]));
    updated := s.Parameter("test", Some(VStr("123")), Options(map[]));
  }

  /** `param` as getter, adder and setter. */
  method ParamScenario() returns (before: Option<Param>, added: Option<Param>, after: Option<Param>,
                                  updated: Option<Param>)
    ensures before.None? && added.Some? && after.Some? && updated.Some?
    ensures updated.value.value == VStr("123")
  {
    var s := NewBlank();
    before, added := ParamAdd(s);
    after, updated := ParamSet(s);
  }

  // ------------------------------------------------------------ behaviours

  /** A fresh schema has no behaviours registered. */
  method RegistriesOfBlank(name: string) returns (f: Option<Formatter>, v: Option<Validator>, p: Option<Parser>)
    ensures f.None? && v.None? && p.None?
  {
    var s := NewBlank();
    f := s.FormatterOf(name);
    v := s.ValidatorOf(name);
    p := s.ParserOf(name);
  }

  lemma ScreamHelp()
    ensures Screamed(VStr("help")) == VStr("HELP")
  {
    assert Text.Upper("p") == "P" by { assert Text.Upper("") == ""; }
    assert Text.Upper("lp") == "LP" by { assert "lp"[1..] == "p"; }
    assert Text.Upper("elp") == "ELP" by { assert "elp"[1..] == "lp"; }
    assert "help"[1..] == "elp";
  }

  /** A registered formatter is found by name, also for parameters added after it. */
  method FormatterRegistryScenario() returns (registered: Formatter, got: Option<Formatter>, lazy: Option<Formatter>)
    ensures registered == Scream && got == Some(Scream) && lazy == Some(Scream)
  {
    var s := NewDeclaring("test", Default(VStr("123")));
    registered := s.RegisterFormatter("scream", Scream);
    got := s.FormatterOf("scream");
    var _ := s.Parameter("f", Some(VNull), Options(map[]));
    lazy := s.FormatterOf("scream");
  }

  /** `param('test').option('scream', true)`, then `param('test').value('help')`. */
  method ScreamOnAssign(s: Schema) returns (screamed: Option<Value>)
    requires s.Valid() && "test" in s.params.entries && "scream" in s.formatters.entries
    requires s.params.entries["test"].kind == Some(StringType)
    modifies s
    ensures screamed == Some(VStr("HELP"))
  {
    var _ := s.SetParamOption("test", "scream", VBool(true));
    screamed := s.AssignValue("test", VStr("help"));
    ghost var q := s.params.entries["test"];
    assert q.value == VStr("help");
    assert q.options["scream"] == VBool(true);
    ScreamedWhenEnabled(q, s.formatters, "scream");
    ScreamHelp();
  }

  /** A formatter changes a parameter's value only once its option is set. */
  method FormatterValueScenario() returns (plain: Option<Value>, screamed: Option<Value>)
    ensures plain == Some(VStr("123")) && screamed == Some(VStr("HELP"))
  {
    var p0 := NewParam("test", VNull, Default(VStr("123")));
    var s := NewDeclaring("test", Default(VStr("123")));
    assert s.params.entries["test"] == p0;
    var _ := s.RegisterFormatter("scream", Scream);
    UnformattedWhenDisabled(p0, s.formatters);
    plain := s.ValueOf("test");
    screamed := ScreamOnAssign(s);
  }

  // ------------------------------------------------------------- validator

  /** A registered validator is found by name, also for parameters added after it. */
  method ValidatorRegistryScenario() returns (registered: Validator, got: Option<Validator>, lazy: Option<Validator>)
    ensures registered == IsPlural && got == Some(IsPlural) && lazy == Some(IsPlural)
  {
    var s := NewDeclaring("test", Default(VStr("help")));
    registered := s.RegisterValidator("isPlural", IsPlural);
    got := s.ValidatorOf("isPlural");
    var _ := s.Parameter("v", Some(VNull), Options(map[]));
    lazy := s.ValidatorOf("isPlural");
  }

  /**
   * Parameters where only `test` carries options: it holds the string `value`,
   * and its `isPlural` option is on exactly when `enabled`.
   */
  ghost predicate PluralParams(ps: OMap<Param>, value: string, enabled: bool) {
    && ps.Valid()
    && "test" in ps.entries
    && ps.entries["test"].value == VStr(value)
    && ps.entries["test"].kind == Some(StringType)
    && ps.entries["test"].options == (if enabled then map["isPlural" := VBool(true)] else map[])
    && (forall k :: k in ps.entries && k != "test" ==> ps.entries[k].options == map[])
  }

  /** `schema({test: ...})` with `isPlural` registered and `PluralParams` holding. */
  ghost predicate PluralState(s: Schema, value: string, enabled: bool)
    reads s
  {
    && s.Valid()
    && s.options == Empty() && s.formatters == Empty()
    && s.validators == Empty<Validator>().Put("isPlural", IsPlural)
    && PluralParams(s.params, value, enabled)
  }

  /** Such a schema is valid exactly when the option is off or the value is plural. */
  lemma PluralFailures(ps: OMap<Param>, formatters: OMap<Formatter>, validators: OMap<Validator>,
                       value: string, enabled: bool)
    requires formatters == Empty() && validators == Empty<Validator>().Put("isPlural", IsPlural)
    requires PluralParams(ps, value, enabled)
    ensures Failures(ps.keys, ps.entries, formatters, validators) == [] <==> !enabled || EndsInS(VStr(value))
  {
    FailuresEmpty(ps.keys, ps.entries, formatters, validators);
    var p := ps.entries["test"];
    assert validators.keys == ["isPlural"];
    assert Formatted(p, formatters) == VStr(value);
    if enabled && AllPass(ps.keys, ps.entries, formatters, validators) {
      var i :| 0 <= i < |ps.keys| && ps.keys[i] == "test";
      assert ParamPasses(p, formatters, validators, validators.keys);
      assert Enabled("isPlural", p.options, validators.entries);
      assert VerdictOf(p, formatters, validators, "isPlural").valid;
    }
    if !enabled || EndsInS(VStr(value)) {
      forall i | 0 <= i < |ps.keys| && ps.keys[i] in ps.entries
        ensures ParamPasses(ps.entries[ps.keys[i]], formatters, validators, validators.keys)
      {
      }
    }
  }

  /** Assigning `{test: value}` with no aliases replaces only the value of `test`. */
  lemma PluralAssigned(before: OMap<Param>, after: OMap<Param>, value: string, old_value: string, enabled: bool)
    requires PluralParams(before, old_value, enabled)
    requires after.keys == before.keys
    requires after.entries == AssignAll(before.entries, map["test" := VStr(value)], Empty())
    ensures PluralParams(after, value, enabled)
  {
    assert after.entries["test"] == Assign(before.entries["test"], VStr(value));
  }

  /** The declared `test: 'help'` starts with no options. */
  lemma FreshPlural(ps: OMap<Param>)
    requires ps.Valid() && FreshParams(ps, map["test" := NewParam("test", VNull, Default(VStr("help")))])
    ensures PluralParams(ps, "help", false)
  {
    FreshOptions(ps, map["test" := NewParam("test", VNull, Default(VStr("help")))]);
  }

  /** `schema({test: 'help'})` with `isPlural` registered. */
  method PluralSetup() returns (s: Schema)
    ensures fresh(s) && PluralState(s, "help", false)
  {
    s := NewDeclaring("test", Default(VStr("help")));
    var _ := s.RegisterValidator("isPlural", IsPlural);
    FreshPlural(s.params);
  }

  /** `validate()` on such a schema. */
  method CheckPlural(s: Schema, ghost value: string, ghost enabled: bool) returns (ok: bool, err: Option<Verdict>)
    requires PluralState(s, value, enabled)
    ensures ok <==> !enabled || EndsInS(VStr(value))
    ensures ok <==> err.None?
    ensures err.Some? ==> !err.value.valid
  {
    PluralFailures(s.params, s.formatters, s.validators, value, enabled);
    ok, err := s.Validate();
  }

  /** `param('test').option('isPlural', true)`. */
  method EnablePlural(s: Schema, ghost value: string)
    requires PluralState(s, value, false)
    modifies s
    ensures PluralState(s, value, true)
  {
    var _ := s.SetParamOption("test", "isPlural", VBool(true));
    assert map[] + map["isPlural" := VBool(true)] == map["isPlural" := VBool(true)];
  }

  /** `validate({test: value})` on such a schema. */
  method ValidatePlural(s: Schema, value: string, ghost old_value: string, ghost enabled: bool)
    returns (ok: bool, err: Option<Verdict>)
    requires PluralState(s, old_value, enabled)
    modifies s
    ensures PluralState(s, value, enabled)
    ensures ok <==> !enabled || EndsInS(VStr(value))
    ensures ok <==> err.None?
    ensures err.Some? ==> !err.value.valid
  {
    ghost var before := s.params;
    ok, err := s.ValidateInput(map["test" := VStr(value)]);
    PluralAssigned(before, s.params, value, old_value, enabled);
    PluralFailures(s.params, s.formatters, s.validators, value, enabled);
  }

  /** `param(name, null)` for a new name with no options keeps only `test` checked. */
  method AddPlain(s: Schema, name: string, ghost value: string, ghost enabled: bool)
    requires name != "test" && PluralState(s, value, enabled)
    modifies s
    ensures PluralState(s, value, enabled)
  {
    var _ := s.Parameter(name, Some(VNull), Options(map[]));
  }

  /** `help` is not plural, `helps` is. */
  lemma PluralExamples()
    ensures !EndsInS(VStr("help")) && EndsInS(VStr("helps"))
  {
    assert "help"[3] == 'p';
    assert "helps"[4] == 's';
  }

  /** Before and after the option is set, and after a plural value is given to `validate`. */
  method PluralChecks(s: Schema) returns (unchecked: bool, singular: bool, plural: bool)
    requires PluralState(s, "help", false)
    modifies s
    ensures PluralState(s, "helps", true)
    ensures unchecked && !singular && plural
  {
    PluralExamples();
    var err;
    unchecked, err := CheckPlural(s, "help", false);
    EnablePlural(s, "help");
    singular, err := CheckPlural(s, "help", true);
    plural, err := ValidatePlural(s, "helps", "help", true);
  }

  /** The callback forms, after another parameter is added. */
  method PluralCallbacks(s: Schema) returns (success: Option<Verdict>, failure: Option<Verdict>)
    requires PluralState(s, "helps", true)
    modifies s
    ensures success.None? && failure.Some? && !failure.value.valid
  {
    PluralExamples();
    AddPlain(s, "v", "helps", true);
    var ok;
    ok, success := CheckPlural(s, "helps", true);
    ok, failure := ValidatePlural(s, "help", "helps", true);
  }

  /**
   * Validation applies the validator only once its option is set; input given
   * to `validate` is assigned first; the callback form receives no error on
   * success and the failing verdict otherwise.
   */
  method ValidatorScenario() returns (unchecked: bool, singular: bool, plural: bool,
                                      success: Option<Verdict>, failure: Option<Verdict>)
    ensures unchecked && !singular && plural
    ensures success.None? && failure.Some? && !failure.value.valid
  {
    var s := PluralSetup();
    unchecked, singular, plural := PluralChecks(s);
    success, failure := PluralCallbacks(s);
  }

  // ---------------------------------------------------------------- parser

  /** A registered parser is found by name, also for parameters added after it. */
  method ParserRegistryScenario() returns (registered: Parser, got: Option<Parser>, lazy: Option<Parser>)
    ensures registered == ElemMatch && got == Some(ElemMatch) && lazy == Some(ElemMatch)
  {
    var s := NewDeclaring("test", Default(VStr("help")));
    registered := s.RegisterParser("elemMatch", ElemMatch);
    got := s.ParserOf("elemMatch");
    var _ := s.Parameter("p", Some(VNull), Options(map[]));
    lazy := s.ParserOf("elemMatch");
  }

  /** Replacing the declared parameter keeps the fresh layout. */
  lemma FreshReplace(ps: OMap<Param>, name: string, p: Param, q: Param)
    requires ps.Valid() && FreshParams(ps, map[name := p]) && !Builtin(name)
    ensures FreshParams(ps.Put(name, q), map[name := q])
  {
    FreshPutKeys(ps, map[name := p], name, q);
    FreshPutBuiltins(ps, map[name := p], name, q);
  }

  /** The filter of a fresh schema whose one declared parameter `n` holds a value. */
  lemma FreshQuery(ps: OMap<Param>, parsers: OMap<Parser>, n: string, p: Param)
    requires !Builtin(n) && ps.Valid() && FreshParams(ps, map[n := p]) && p.value != VNull
    ensures QueryOf(ps.keys, ps.entries, Empty(), Empty(), parsers) ==
            map[n := ParsedEntry(p.value, p.options, parsers.keys, parsers.entries)]
  {
    assert Formatted(ps.entries[Q], Empty()) == VNull;
    assert Formatted(ps.entries[n], Empty()) == p.value;
    OneFieldQuery(ps, Empty(), parsers, n);
  }

  /** Replacing entries without adding any keeps the map well-formed. */
  lemma SameKeysValid(before: OMap<Param>, after: OMap<Param>)
    requires before.Valid() && after.keys == before.keys && after.entries.Keys == before.entries.Keys
    ensures after.Valid()
  {
  }

  /** With `elemMatch` the only parser, the entry is `$elemMatch` exactly when its option is set. */
  lemma ElemMatchEntries(v: Value, parsers: OMap<Parser>)
    requires parsers == Empty<Parser>().Put("elemMatch", ElemMatch)
    ensures ParsedEntry(v, map[], parsers.keys, parsers.entries) == v
    ensures ParsedEntry(v, map["elemMatch" := VStr("prop")], parsers.keys, parsers.entries) ==
            ElemMatchOf(VStr("prop"), v)
  {
    assert parsers.keys == ["elemMatch"];
    assert parsers.keys[..0] == [];
  }

  /** Parsing or validating with no input assigns nothing. */
  lemma AssignNothing(ps: map<string, Param>, options: OMap<Value>)
    ensures AssignAll(ps, map[], options) == ps
  {
  }

  /** `schema({test: ...})` with `elemMatch` registered, where `test` is stored as `p`. */
  ghost predicate ParserState(s: Schema, p: Param)
    reads s
  {
    && s.Valid() && s.options == Empty() && s.formatters == Empty()
    && s.parsers == Empty<Parser>().Put("elemMatch", ElemMatch)
    && FreshParams(s.params, map["test" := p])
  }

  /** `schema({test: 'help'})` with `elemMatch` registered. */
  method ParserSetup() returns (s: Schema)
    ensures fresh(s) && ParserState(s, NewParam("test", VNull, Default(VStr("help"))))
  {
    s := NewDeclaring("test", Default(VStr("help")));
    var _ := s.RegisterParser("elemMatch", ElemMatch);
  }

  /** Options merged into a parameter that has none are its options. */
  lemma MergeIntoNone(p: Param, opts: map<string, Value>)
    requires p.options == map[]
    ensures WithOptions(p, opts).options == opts
  {
  }

  /** `param('test').option('elemMatch', 'prop')`. */
  method MatchOnProp(s: Schema, ghost p: Param) returns (q: Param)
    requires ParserState(s, p) && p.options == map[]
    modifies s
    ensures ParserState(s, q) && q.value == p.value
    ensures q.options == map["elemMatch" := VStr("prop")]
  {
    ghost var before := s.params;
    NotBuiltin();
    var r := s.SetParamOption("test", "elemMatch", VStr("prop"));
    q := r.value;
    MergeIntoNone(p, map["elemMatch" := VStr("prop")]);
    FreshReplace(before, "test", p, q);
  }

  /** The filter of such a schema, before and after the option is set. */
  lemma StoredParsedQuery(before: OMap<Param>, after: OMap<Param>, parsers: OMap<Parser>, p: Param)
    requires parsers == Empty<Parser>().Put("elemMatch", ElemMatch)
    requires before.Valid() && FreshParams(before, map["test" := p]) && p.value != VNull
    requires after.keys == before.keys && after.entries == AssignAll(before.entries, map[], Empty())
    ensures after == before
    ensures p.options == map[] ==>
              QueryOf(after.keys, after.entries, Empty(), Empty(), parsers) == map["test" := p.value]
    ensures p.options == map["elemMatch" := VStr("prop")] ==>
              QueryOf(after.keys, after.entries, Empty(), Empty(), parsers) ==
              map["test" := ElemMatchOf(VStr("prop"), p.value)]
  {
    AssignNothing(before.entries, Empty());
    assert after == before;
    NotBuiltin();
    FreshQuery(after, parsers, "test", p);
    ElemMatchEntries(p.value, parsers);
  }

  /** `parse()` with no input on such a schema: `elemMatch` applies exactly when its option is set. */
  method ParseStored(s: Schema, ghost p: Param, ghost matched: bool) returns (query: map<string, Value>)
    requires ParserState(s, p) && p.value != VNull
    requires p.options == if matched then map["elemMatch" := VStr("prop")] else map[]
    modifies s
    ensures ParserState(s, p)
    ensures query == map["test" := if matched then ElemMatchOf(VStr("prop"), p.value) else p.value]
  {
    ghost var before := s.params;
    var r := s.Parse(map[]);
    StoredParsedQuery(before, s.params, s.parsers, p);
    query := r.query;
  }

  /** `parse().query` before the option is set: the plain value. */
  method UnmatchedQuery() returns (s: Schema, ghost p: Param, plain: map<string, Value>)
    ensures fresh(s) && ParserState(s, p) && p.value == VStr("help") && p.options == map[]
    ensures plain == map["test" := VStr("help")]
  {
    p := NewParam("test", VNull, Default(VStr("help")));
    s := ParserSetup();
    plain := ParseStored(s, p, false);
  }

  /** `parse().query` after `param('test').option('elemMatch', 'prop')`: the `$elemMatch` operator. */
  method MatchedQuery(s: Schema, ghost p: Param) returns (matched: map<string, Value>)
    requires ParserState(s, p) && p.value == VStr("help") && p.options == map[]
    modifies s
    ensures matched == map["test" := ElemMatchOf(VStr("prop"), VStr("help"))]
  {
    var q := MatchOnProp(s, p);
    matched := ParseStored(s, q, true);
  }

  /** A parser changes the filter only once its option is set. */
  method ParserQueryScenario() returns (plain: map<string, Value>, matched: map<string, Value>)
    ensures plain == map["test" := VStr("help")]
    ensures matched == map["test" := ElemMatchOf(VStr("prop"), VStr("help"))]
  {
    var s;
    ghost var p;
    s, p, plain := UnmatchedQuery();
    matched := MatchedQuery(s, p);
  }

  // ------------------------------------------------------------------ name

  /** `schema({}, {page: 'p'})`: the built-in `page` answers to `p`. */
  method NameOfBuiltin() returns (names: seq<string>)
    ensures names == ["page", "page", "p", "p"]
  {
    var s := new Schema([], [("page", VStr("p"))]);
    SingleAlias("page", "p");
    names := [s.SchemaParamName("p"), s.SchemaParamName("page"), s.QueryParamName("page"), s.QueryParamName("p")];
  }

  /** `schema({test: String}, {test: 't'})`: a declared parameter answers to its alias. */
  method NameOfDeclared() returns (names: seq<string>)
    ensures names == ["test", "test", "t", "t"]
  {
    var s := new Schema([("test", Marker(StringType))], [("test", VStr("t"))]);
    SingleAlias("test", "t");
    names := [s.SchemaParamName("t"), s.SchemaParamName("test"), s.QueryParamName("test"), s.QueryParamName("t")];
  }

  // ----------------------------------------------------------------- parse

  /** A fresh schema with no aliases assigns each input value to the parameter of the same name. */
  lemma AssignedByName(before: map<string, Param>, after: map<string, Param>, input: map<string, Value>, name: string)
    requires name in before && name in input
    requires after == AssignAll(before, input, Empty())
    ensures name in after && after[name] == Assign(before[name], input[name])
  {
  }

  /** With no aliases, a parameter whose name is not in the input keeps its value. */
  lemma AssignedElsewhere(before: map<string, Param>, after: map<string, Param>, input: map<string, Value>, name: string)
    requires name in before && name !in input
    requires after == AssignAll(before, input, Empty())
    ensures name in after && after[name] == before[name]
  {
  }

  /** The projection of a fresh schema given `{select: sel}`. */
  lemma SelectOfBlank(before: OMap<Param>, after: map<string, Param>, sel: string)
    requires FreshParams(before, map[])
    requires after == AssignAll(before.entries, map[SELECT := VStr(sel)], Empty())
    ensures SelectOf(after, Empty()) == SelectMap(sel)
  {
    AssignedByName(before.entries, after, map[SELECT := VStr(sel)], SELECT);
    assert Formatted(after[SELECT], Empty()) == VStr(sel);
  }

  /** `schema().parse({select: sel}).select`. */
  method ParseSelect(sel: string) returns (r: map<string, int>)
    ensures r == SelectMap(sel)
  {
    var s := NewBlank();
    ghost var before := s.params;
    var parsed := s.Parse(map[SELECT := VStr(sel)]);
    SelectOfBlank(before, s.params.entries, sel);
    r := parsed.select;
  }

  /** `schema().parse().select`: the default `select` is empty. */
  method ParseNoSelect() returns (r: map<string, int>)
    ensures r == map[]
  {
    var s := NewBlank();
    var parsed := s.Parse(map[]);
    r := parsed.select;
    SelectOfEmpty();
  }

  /** The cursor of freshly declared `page` and `limit` parameters assigned `page` and `limit`. */
  lemma PageCursor(ps: map<string, Param>, formatters: OMap<Formatter>, page: int, limit: int)
    requires formatters == Empty()
    requires PAGE in ps && ps[PAGE] == Assign(NewParam(PAGE, VNull, Default(VNum(Finite(1)))), VNum(Finite(page)))
    requires LIMIT in ps && ps[LIMIT] == Assign(NewParam(LIMIT, VNull, Default(VNum(Finite(30)))), VNum(Finite(limit)))
    ensures CursorOf(ps, formatters).skip == Some(Finite((page - 1) * limit))
    ensures CursorOf(ps, formatters).limit == Some(Finite(limit))
  {
    CursorArithmetic(ps, formatters, page, limit);
  }

  /** The cursor of a fresh schema given `{page: page, limit: limit}`. */
  lemma PageOfBlank(before: OMap<Param>, after: map<string, Param>, page: int, limit: int)
    requires FreshParams(before, map[])
    requires after == AssignAll(before.entries, map[PAGE := VNum(Finite(page)), LIMIT := VNum(Finite(limit))], Empty())
    ensures CursorOf(after, Empty()).skip == Some(Finite((page - 1) * limit))
    ensures CursorOf(after, Empty()).limit == Some(Finite(limit))
  {
    var input := map[PAGE := VNum(Finite(page)), LIMIT := VNum(Finite(limit))];
    AssignedByName(before.entries, after, input, PAGE);
    AssignedByName(before.entries, after, input, LIMIT);
    PageCursor(after, Empty(), page, limit);
  }

  /** `schema().parse({page: p, limit: l}).cursor`. */
  method ParsePage(page: int, limit: int) returns (skip: Option<Number>, lim: Option<Number>)
    ensures skip == Some(Finite((page - 1) * limit)) && lim == Some(Finite(limit))
  {
    var s := NewBlank();
    ghost var before := s.params;
    var parsed := s.Parse(map[PAGE := VNum(Finite(page)), LIMIT := VNum(Finite(limit))]);
    PageOfBlank(before, s.params.entries, page, limit);
    skip := parsed.cursor.skip;
    lim := parsed.cursor.limit;
  }

  /** The page size of a fresh schema given `{limit: limit}`. */
  lemma LimitOfBlank(before: OMap<Param>, after: map<string, Param>, limit: int)
    requires FreshParams(before, map[])
    requires after == AssignAll(before.entries, map[LIMIT := VNum(Finite(limit))], Empty())
    ensures CursorOf(after, Empty()).limit == Some(Finite(limit))
  {
    AssignedByName(before.entries, after, map[LIMIT := VNum(Finite(limit))], LIMIT);
    assert Formatted(after[LIMIT], Empty()) == VNum(Finite(limit));
  }

  /** `schema().parse({limit: l}).cursor.limit`. */
  method ParseLimit(limit: int) returns (lim: Option<Number>)
    ensures lim == Some(Finite(limit))
  {
    var s := NewBlank();
    ghost var before := s.params;
    var parsed := s.Parse(map[LIMIT := VNum(Finite(limit))]);
    LimitOfBlank(before, s.params.entries, limit);
    lim := parsed.cursor.limit;
  }

  /** The sort order of a fresh schema given `{sort: order}`. */
  lemma SortOfBlank(before: OMap<Param>, after: map<string, Param>, order: string)
    requires FreshParams(before, map[])
    requires after == AssignAll(before.entries, map[SORT := VStr(order)], Empty())
    ensures order == "" ==> CursorOf(after, Empty()).sort == SortMap("name")
    ensures order != "" ==> CursorOf(after, Empty()).sort == SortMap(order)
  {
    AssignedByName(before.entries, after, map[SORT := VStr(order)], SORT);
    assert Formatted(after[SORT], Empty()) == VStr(order);
  }

  /** `schema().parse({sort: order}).cursor.sort`: an empty order falls back to the default `name`. */
  method ParseSort(order: string) returns (r: map<string, int>)
    ensures order == "" ==> r == SortMap("name")
    ensures order != "" ==> r == SortMap(order)
  {
    var s := NewBlank();
    ghost var before := s.params;
    var parsed := s.Parse(map[SORT := VStr(order)]);
    SortOfBlank(before, s.params.entries, order);
    r := parsed.cursor.sort;
  }

  /** With no formatters registered, `value()` of an assigned parameter is the coerced value. */
  lemma AssignedPlain(name: string, spec: ParamSpec, raw: Value, formatters: OMap<Formatter>)
    requires formatters == Empty()
    ensures Formatted(Assign(NewParam(name, VNull, spec), raw), formatters) == Coerce(SpecKind(spec), raw)
  {
  }

  /** The filter of a fresh schema where only the search term `q` has a value. */
  lemma KeywordsQuery(ps: OMap<Param>, formatters: OMap<Formatter>, parsers: OMap<Parser>)
    requires ps.Valid() && ps.entries.Keys == {Q, SELECT, PAGE, LIMIT, SORT}
    requires Formatted(ps.entries[Q], formatters) != VNull
    ensures QueryOf(ps.keys, ps.entries, Empty(), formatters, parsers) ==
            map[KEYWORDS := Formatted(ps.entries[Q], formatters)]
  {
    assert Q in ps.keys;
    forall i | 0 <= i < |ps.keys| && Contributes(ps.keys[i], ps.entries, formatters)
      ensures ps.keys[i] == Q
    {
      assert ps.keys[i] in ps.entries.Keys;
    }
    SingleContributor(ps.keys, ps.entries, Empty(), formatters, parsers, Q);
  }

  /** The filter of a schema with one declared parameter `n`, the only one with a value besides non-filter built-ins. */
  lemma OneFieldQuery(ps: OMap<Param>, formatters: OMap<Formatter>, parsers: OMap<Parser>, n: string)
    requires ps.Valid() && ps.entries.Keys == {Q, SELECT, PAGE, LIMIT, SORT} + {n} && !Builtin(n)
    requires Formatted(ps.entries[Q], formatters) == VNull
    requires Formatted(ps.entries[n], formatters) != VNull
    ensures QueryOf(ps.keys, ps.entries, Empty(), formatters, parsers) ==
            map[n := ParsedEntry(Formatted(ps.entries[n], formatters), ps.entries[n].options, parsers.keys, parsers.entries)]
  {
    assert n in ps.keys;
    forall i | 0 <= i < |ps.keys| && Contributes(ps.keys[i], ps.entries, formatters)
      ensures ps.keys[i] == n
    {
      assert ps.keys[i] in ps.entries.Keys;
    }
    SingleContributor(ps.keys, ps.entries, Empty(), formatters, parsers, n);
  }

  /** Parsing `{q: term}` on a fresh schema. */
  lemma KeywordsOfBlank(before: OMap<Param>, after: OMap<Param>, parsers: OMap<Parser>, term: string)
    requires before.Valid() && FreshParams(before, map[])
    requires after.keys == before.keys && after.entries == AssignAll(before.entries, map[Q := VStr(term)], Empty())
    ensures QueryOf(after.keys, after.entries, Empty(), Empty(), parsers) == map[KEYWORDS := VPattern(term)]
  {
    KeywordsLayout(before, after, term);
    KeywordsStored(before, after, term);
    KeywordsQuery(after, Empty(), parsers);
  }

  /** Parsing `{q: term}` on a fresh schema keeps its parameters ... */
  lemma KeywordsLayout(before: OMap<Param>, after: OMap<Param>, term: string)
    requires before.Valid() && FreshParams(before, map[])
    requires after.keys == before.keys && after.entries == AssignAll(before.entries, map[Q := VStr(term)], Empty())
    ensures after.Valid() && after.entries.Keys == {Q, SELECT, PAGE, LIMIT, SORT}
  {
    SameKeysValid(before, after);
  }

  /** ... and stores the term as a pattern. */
  lemma KeywordsStored(before: OMap<Param>, after: OMap<Param>, term: string)
    requires before.Valid() && FreshParams(before, map[])
    requires after.keys == before.keys && after.entries == AssignAll(before.entries, map[Q := VStr(term)], Empty())
    ensures Q in after.entries && Formatted(after.entries[Q], Empty()) == VPattern(term)
  {
    KeywordsEntry(before, after, term);
    AssignedPlain(Q, Marker(RegExpType), VStr(term), Empty());
  }

  /** The search-term parameter after parsing `{q: term}` is the built-in given `term`. */
  lemma KeywordsEntry(before: OMap<Param>, after: OMap<Param>, term: string)
    requires before.Valid() && FreshParams(before, map[])
    requires after.keys == before.keys && after.entries == AssignAll(before.entries, map[Q := VStr(term)], Empty())
    ensures Q in after.entries && after.entries[Q] == Assign(NewParam(Q, VNull, Marker(RegExpType)), VStr(term))
  {
    AssignedByName(before.entries, after.entries, map[Q := VStr(term)], Q);
  }

  /** `schema().parse({q: term}).query`: the term becomes the `keywords` pattern. */
  method ParseKeywords(term: string) returns (query: map<string, Value>)
    ensures query == map[KEYWORDS := VPattern(term)]
  {
    var s := NewBlank();
    ghost var before := s.params;
    var parsed := s.Parse(map[Q := VStr(term)]);
    KeywordsOfBlank(before, s.params, s.parsers, term);
    query := parsed.query;
  }

  /** Parsing `{distance: d}` on `schema({distance: 0})` keeps its parameters. */
  lemma DistanceLayout(before: OMap<Param>, after: OMap<Param>, d: int)
    requires before.Valid() && FreshParams(before, map["distance" := NewParam("distance", VNull, Default(VNum(Finite(0))))])
    requires after.keys == before.keys && after.entries == AssignAll(before.entries, map["distance" := VNum(Finite(d))], Empty())
    ensures after.Valid() && after.entries.Keys == {Q, SELECT, PAGE, LIMIT, SORT} + {"distance"}
  {
    SameKeysValid(before, after);
  }

  /** ... leaves the search term unset ... */
  lemma DistanceNoTerm(before: OMap<Param>, after: OMap<Param>, d: int)
    requires before.Valid() && FreshParams(before, map["distance" := NewParam("distance", VNull, Default(VNum(Finite(0))))])
    requires after.keys == before.keys && after.entries == AssignAll(before.entries, map["distance" := VNum(Finite(d))], Empty())
    ensures Formatted(after.entries[Q], Empty()) == VNull
  {
    NotBuiltin();
    AssignedElsewhere(before.entries, after.entries, map["distance" := VNum(Finite(d))], Q);
  }

  /** ... and stores `d` as the distance. */
  lemma DistanceStored(before: OMap<Param>, after: OMap<Param>, d: int)
    requires before.Valid() && FreshParams(before, map["distance" := NewParam("distance", VNull, Default(VNum(Finite(0))))])
    requires after.keys == before.keys && after.entries == AssignAll(before.entries, map["distance" := VNum(Finite(d))], Empty())
    ensures Formatted(after.entries["distance"], Empty()) == VNum(Finite(d))
  {
    DistanceEntry(before, after, d);
    AssignedPlain("distance", Default(VNum(Finite(0))), VNum(Finite(d)), Empty());
  }

  /** The distance parameter after parsing is the declared one given `d`. */
  lemma DistanceEntry(before: OMap<Param>, after: OMap<Param>, d: int)
    requires before.Valid() && FreshParams(before, map["distance" := NewParam("distance", VNull, Default(VNum(Finite(0))))])
    requires after.keys == before.keys && after.entries == AssignAll(before.entries, map["distance" := VNum(Finite(d))], Empty())
    ensures "distance" in after.entries
    ensures after.entries["distance"] == Assign(NewParam("distance", VNull, Default(VNum(Finite(0)))), VNum(Finite(d)))
  {
    AssignedByName(before.entries, after.entries, map["distance" := VNum(Finite(d))], "distance");
  }

  /** The filter after parsing `{distance: d}` on `schema({distance: 0})`. */
  lemma DistanceOfFresh(before: OMap<Param>, after: OMap<Param>, parsers: OMap<Parser>, d: int)
    requires parsers == Empty()
    requires before.Valid() && FreshParams(before, map["distance" := NewParam("distance", VNull, Default(VNum(Finite(0))))])
    requires after.keys == before.keys && after.entries == AssignAll(before.entries, map["distance" := VNum(Finite(d))], Empty())
    ensures QueryOf(after.keys, after.entries, Empty(), Empty(), parsers) == map["distance" := VNum(Finite(d))]
  {
    DistanceLayout(before, after, d);
    DistanceNoTerm(before, after, d);
    DistanceStored(before, after, d);
    NotBuiltin();
    OneFieldQuery(after, Empty(), parsers, "distance");
  }

  /** `schema({distance: 0}).parse({distance: d}).query`: any declared parameter filters. */
  method ParseAny(d: int) returns (query: map<string, Value>)
    ensures query == map["distance" := VNum(Finite(d))]
  {
    var s := NewDeclaring("distance", Default(VNum(Finite(0))));
    ghost var before := s.params;
    var parsed := s.Parse(map["distance" := VNum(Finite(d))]);
    DistanceOfFresh(before, s.params, s.parsers, d);
    query := parsed.query;
  }

  /** The default parse of the documented inputs. */
  method DefaultParseScenario() returns (keywords: map<string, Value>, selects: seq<map<string, int>>,
                                         skip: Option<Number>, limit: Option<Number>,
                                         sorts: seq<map<string, int>>, any: map<string, Value>)
    ensures keywords == map[KEYWORDS := VPattern("testing")]
    ensures selects == [map[], map[], map["a" := 1], map["a" := 0, "b" := 1, "c" := 1]]
    ensures skip == Some(Finite(10)) && limit == Some(Finite(10))
    ensures sorts == [map["name" := 1], map["a" := -1], map["a" := -1, "b" := 1, "c" := 1]]
    ensures any == map["distance" := VNum(Finite(23))]
  {
    keywords := ParseKeywords("testing");
    var s0 := ParseNoSelect();
    var s1 := ParseSelect("");
    var s2 := ParseSelect("a");
    var s3 := ParseSelect("-a,b,+c");
    SelectExamples();
    selects := [s0, s1, s2, s3];
    var pageLimit;
    skip, pageLimit := ParsePage(2, 10);
    limit := ParseLimit(10);
    var o0 := ParseSort("");
    var o1 := ParseSort("-a");
    var o2 := ParseSort("-a,b,+c");
    SortExamples();
    SortOfName();
    sorts := [o0, o1, o2];
    any := ParseAny(23);
  }
}

=== FILE: schema.dfy ===
/**
 * The query schema: an insertion-ordered set of named parameters, the
 * schema-level options (which double as the alias table and as the switch
 * that forbids a parameter), and the three behaviour registries. The parse
 * and validate entry points assign caller input to the parameters in place
 * and then compute their result from the schema's state.
 */
module Schemas {
  import opened Wrappers
  import opened Values
  import opened OrderedMaps
  import opened Params
  import opened Behaviours
  import opened Formatting
  import opened Aliases
  import opened Validation
  import opened Parsing

  /**
   * The built-in parameters of every schema: the search term `q` (a
   * case-insensitive pattern), `select`, `page` (default 1), `limit`
   * (default 30) and `sort` (default `name`, ascending).
   */
  function BuiltinSpecs(): seq<(string, ParamSpec)> {
    [(Q, Marker(RegExpType)), (SELECT, Default(VStr(""))), (PAGE, Default(VNum(Finite(1)))),
     (LIMIT, Default(VNum(Finite(30)))), (SORT, Default(VStr("name")))]
  }

  /** An option set to `false` forbids the parameter of that name. */
  predicate Forbidden(options: OMap<Value>, name: string) {
    name in options.entries && options.entries[name] == VBool(false)
  }

  /** Every parameter is stored under its own name. */
  ghost predicate Named(ps: OMap<Param>) {
    forall n :: n in ps.entries ==> ps.entries[n].name == n
  }

  /** Adding the parameters `specs` in order, each with no value, skipping the forbidden ones. */
  function Declare(ps: OMap<Param>, specs: seq<(string, ParamSpec)>, options: OMap<Value>): (r: OMap<Param>)
    requires ps.Valid() && Named(ps)
    ensures r.Valid() && Named(r)
    decreases |specs|
  {
    if specs == [] then ps
    else
      var name := specs[0].0;
      var next := if Forbidden(options, name) then ps else ps.Put(name, NewParam(name, VNull, specs[0].1));
      Declare(next, specs[1..], options)
  }

  /** Declaring one more parameter after `specs` adds it last, unless it is forbidden. */
  lemma {:induction false} DeclareSnoc(ps: OMap<Param>, specs: seq<(string, ParamSpec)>, x: (string, ParamSpec),
                                       options: OMap<Value>)
    requires ps.Valid() && Named(ps)
    ensures Declare(ps, specs + [x], options) ==
            if Forbidden(options, x.0) then Declare(ps, specs, options)
            else Declare(ps, specs, options).Put(x.0, NewParam(x.0, VNull, x.1))
    decreases |specs|
  {
    if specs == [] {
      assert [] + [x] == [x];
    } else {
      var name := specs[0].0;
      var next := if Forbidden(options, name) then ps else ps.Put(name, NewParam(name, VNull, specs[0].1));
      assert (specs + [x])[1..] == specs[1..] + [x];
      DeclareSnoc(next, specs[1..], x, options);
    }
  }

  /** The declared parameters are the permitted names among `specs`, besides those already there. */
  lemma {:induction false} DeclareKeys(ps: OMap<Param>, specs: seq<(string, ParamSpec)>, options: OMap<Value>, k: string)
    requires ps.Valid() && Named(ps)
    ensures k in Declare(ps, specs, options).entries <==>
            k in ps.entries || (!Forbidden(options, k) && exists i :: 0 <= i < |specs| && specs[i].0 == k)
    decreases |specs|
  {
    if specs != [] {
      var name := specs[0].0;
      var next := if Forbidden(options, name) then ps else ps.Put(name, NewParam(name, VNull, specs[0].1));
      DeclareKeys(next, specs[1..], options, k);
      if exists i :: 0 <= i < |specs| && specs[i].0 == k {
        var i :| 0 <= i < |specs| && specs[i].0 == k;
        if i > 0 {
          assert specs[1..][i - 1].0 == k;
        }
      }
      if exists i :: 0 <= i < |specs[1..]| && specs[1..][i].0 == k {
        var i :| 0 <= i < |specs[1..]| && specs[1..][i].0 == k;
        assert specs[i + 1].0 == k;
      }
    }
  }

  /** A name that `specs` does not mention keeps the parameter it had. */
  lemma {:induction false} DeclareUntouched(ps: OMap<Param>, specs: seq<(string, ParamSpec)>, options: OMap<Value>, k: string)
    requires ps.Valid() && Named(ps) && k in ps.entries
    requires forall i :: 0 <= i < |specs| ==> specs[i].0 != k
    ensures k in Declare(ps, specs, options).entries
    ensures Declare(ps, specs, options).entries[k] == ps.entries[k]
    decreases |specs|
  {
    if specs != [] {
      var name := specs[0].0;
      var next := if Forbidden(options, name) then ps else ps.Put(name, NewParam(name, VNull, specs[0].1));
      assert forall i :: 0 <= i < |specs[1..]| ==> specs[1..][i] == specs[i + 1];
      DeclareUntouched(next, specs[1..], options, k);
    }
  }

  /** A permitted name holds a fresh parameter built from its last declaration. */
  lemma {:induction false} DeclareLast(ps: OMap<Param>, specs: seq<(string, ParamSpec)>, options: OMap<Value>, i: nat)
    requires ps.Valid() && Named(ps)
    requires i < |specs| && !Forbidden(options, specs[i].0)
    requires forall j :: i < j < |specs| ==> specs[j].0 != specs[i].0
    ensures specs[i].0 in Declare(ps, specs, options).entries
    ensures Declare(ps, specs, options).entries[specs[i].0] == NewParam(specs[i].0, VNull, specs[i].1)
    decreases |specs|
  {
    var name := specs[0].0;
    var next := if Forbidden(options, name) then ps else ps.Put(name, NewParam(name, VNull, specs[0].1));
    assert forall j :: 0 <= j < |specs[1..]| ==> specs[1..][j] == specs[j + 1];
    if i == 0 {
      DeclareUntouched(next, specs[1..], options, name);
    } else {
      DeclareLast(next, specs[1..], options, i - 1);
    }
  }

  /** The first verdict by which an enabled validator rejects `p`, in registration order. */
  method FirstFailure(p: Param, formatters: OMap<Formatter>, validators: OMap<Validator>)
    returns (err: Option<Verdict>)
    ensures err.None? <==> ParamFailures(p, formatters, validators, validators.keys) == []
    ensures err.Some? ==> err.value == ParamFailures(p, formatters, validators, validators.keys)[0]
  {
    var names := validators.keys;
    var j := 0;
    err := None;
    while j < |names| && err.None?
      invariant 0 <= j <= |names|
      invariant err.None? ==> ParamFailures(p, formatters, validators, names[..j]) == []
      invariant err.Some? ==> ParamFailures(p, formatters, validators, names[..j]) != [] &&
                              err.value == ParamFailures(p, formatters, validators, names[..j])[0]
    {
      var v := names[j];
      assert names[..j + 1][..j] == names[..j];
      if v in validators.entries && v in p.options && Truthy(p.options[v]) {
        var verdict := Check(validators.entries[v], p.options[v], Formatted(p, formatters), p.name);
        if !verdict.valid {
          err := Some(verdict);
        }
      }
      j := j + 1;
    }
    ParamFailuresPrefix(p, formatters, validators, names, j);
    if err.None? {
      assert names[..j] == names;
    }
  }

  /** Assign every parameter listed in `keys`, one at a time, the input value under its query name. */
  method AssignEach(keys: seq<string>, params: map<string, Param>, input: map<string, Value>,
                    options: OMap<Value>) returns (entries: map<string, Param>)
    requires forall i, j :: 0 <= i < j < |keys| ==> keys[i] != keys[j]
    requires forall k :: k in params <==> k in keys
    ensures entries == AssignAll(params, input, options)
  {
    entries := params;
    var i := 0;
    while i < |keys|
      invariant 0 <= i <= |keys|
      invariant entries.Keys == params.Keys
      invariant forall j :: 0 <= j < i ==> entries[keys[j]] == AssignFromInput(params[keys[j]], keys[j], input, options)
      invariant forall j :: i <= j < |keys| ==> entries[keys[j]] == params[keys[j]]
    {
      var n := keys[i];
      var q := QueryName(options, n);
      if q in input {
        entries := entries[n := Assign(entries[n], input[q])];
      }
      i := i + 1;
    }
    forall k | k in entries
      ensures entries[k] == AssignFromInput(params[k], k, input, options)
    {
      var j :| 0 <= j < |keys| && keys[j] == k;
    }
  }

  /** The first failing verdict over the parameters in `order`, each checked by `FirstFailure`. */
  method FirstFailureOf(order: seq<string>, params: map<string, Param>, formatters: OMap<Formatter>,
                        validators: OMap<Validator>) returns (err: Option<Verdict>)
    ensures err.None? <==> Failures(order, params, formatters, validators) == []
    ensures err.Some? ==> err.value == Failures(order, params, formatters, validators)[0]
  {
    var i := 0;
    err := None;
    while i < |order| && err.None?
      invariant 0 <= i <= |order|
      invariant err.None? ==> Failures(order[..i], params, formatters, validators) == []
      invariant err.Some? ==> Failures(order[..i], params, formatters, validators) != [] &&
                              err.value == Failures(order[..i], params, formatters, validators)[0]
    {
      FailuresStep(order, params, formatters, validators, i);
      if order[i] in params {
        err := FirstFailure(params[order[i]], formatters, validators);
      }
      i := i + 1;
    }
    FailuresPrefix(order, params, formatters, validators, i);
    if err.None? {
      assert order[..i] == order;
    }
  }

  class Schema {
    var params: OMap<Param>
    var options: OMap<Value>
    var formatters: OMap<Formatter>
    var validators: OMap<Validator>
    var parsers: OMap<Parser>

    ghost predicate Valid()
      reads this
    {
      && params.Valid() && options.Valid()
      && formatters.Valid() && validators.Valid() && parsers.Valid()
      && Named(params)
    }

    /** A schema-level option set to `false` forbids a parameter of that name. */
    predicate Disallowed(name: string)
      reads this
    {
      Forbidden(options, name)
    }

    /**
     * `new Schema(params, options)`: the options are set first, then the
     * built-ins and the declared parameters are added in order, each unless
     * an option forbids it.
     */
    constructor (declared: seq<(string, ParamSpec)>, opts: seq<(string, Value)>)
      ensures Valid()
      ensures options == OptionsOf(opts)
      ensures params == Declare(Empty(), BuiltinSpecs() + declared, options)
      ensures formatters == Empty() && validators == Empty() && parsers == Empty()
    {
      var all := BuiltinSpecs() + declared;
      var o := OptionsOf(opts);
      var ps: OMap<Param> := Empty();
      var i := 0;
      while i < |all|
        invariant 0 <= i <= |all|
        invariant ps.Valid() && Named(ps)
        invariant Declare(ps, all[i..], o) == Declare(Empty(), all, o)
      {
        assert all[i..][1..] == all[i + 1..];
        var (name, spec) := all[i];
        if !Forbidden(o, name) {
          ps := ps.Put(name, NewParam(name, VNull, spec));
        }
        i := i + 1;
      }
      params := ps;
      options := o;
      formatters := Empty();
      validators := Empty();
      parsers := Empty();
    }

    // ------------------------------------------------------------ parameters

    /** `get(name)`: the parameter, or none when it was never added. */
    function Get(name: string): (r: Option<Param>)
      reads this
      ensures r.Some? <==> name in params.entries
      ensures r.Some? ==> r.value == params.entries[name]
    {
      params.Get(name)
    }

    /** `add(name, value, spec)`: store a new parameter unless an option forbids the name. */
    method Add(name: string, raw: Value, spec: ParamSpec) returns (r: Option<Param>)
      requires Valid()
      modifies this
      ensures Valid()
      ensures r.Some? <==> !Disallowed(name)
      ensures r.Some? ==> r.value == NewParam(name, raw, spec) && params == old(params).Put(name, r.value)
      ensures r.None? ==> params == old(params)
      ensures options == old(options) && formatters == old(formatters)
      ensures validators == old(validators) && parsers == old(parsers)
    {
      if Disallowed(name) {
        r := None;
      } else {
        var p := NewParam(name, raw, spec);
        params := params.Put(name, p);
        r := Some(p);
      }
    }

    /** `add(paramInstance)`: adopt a parameter built outside the schema. */
    method AddParam(p: Param) returns (r: Option<Param>)
      requires Valid()
      modifies this
      ensures Valid()
      ensures r.Some? <==> !Disallowed(p.name)
      ensures r.Some? ==> r.value == p && params == old(params).Put(p.name, p)
      ensures r.None? ==> params == old(params)
      ensures options == old(options) && formatters == old(formatters)
      ensures validators == old(validators) && parsers == old(parsers)
    {
      if Disallowed(p.name) {
        r := None;
      } else {
        params := params.Put(p.name, p);
        r := Some(p);
      }
    }

    /**
     * `set(name, value, options)`: assign the value (coerced) and merge the
     * options into an existing parameter; never creates one.
     */
    method Set(name: string, raw: Value, opts: map<string, Value>) returns (r: Option<Param>)
      requires Valid()
      modifies this
      ensures Valid()
      ensures r.Some? <==> name in old(params.entries)
      ensures r.Some? ==> r.value == WithOptions(Assign(old(params.entries[name]), raw), opts)
      ensures r.Some? ==> params == old(params).Put(name, r.value)
      ensures r.None? ==> params == old(params)
      ensures params.keys == old(params.keys)
      ensures options == old(options) && formatters == old(formatters)
      ensures validators == old(validators) && parsers == old(parsers)
    {
      if name in params.entries {
        var p := WithOptions(Assign(params.entries[name], raw), opts);
        params := params.Put(name, p);
        r := Some(p);
      } else {
        r := None;
      }
    }

    /**
     * `param(name, value?, spec?)`: a getter when only the name is given, a
     * setter for an existing parameter, an `add` for a new one when a value
     * (possibly null) is given.
     */
    method Parameter(name: string, raw: Option<Value>, spec: ParamSpec) returns (r: Option<Param>)
      requires Valid()
      modifies this
      ensures Valid()
      ensures raw.None? ==> params == old(params) && r == old(Get(name))
      ensures raw.Some? && name in old(params.entries) ==>
                r == Some(WithOptions(Assign(old(params.entries[name]), raw.value), SpecOptions(spec))) &&
                params == old(params).Put(name, r.value)
      ensures raw.Some? && name !in old(params.entries) ==>
                (r.Some? <==> !Disallowed(name)) &&
                (r.Some? ==> r.value == NewParam(name, raw.value, spec) && params == old(params).Put(name, r.value)) &&
                (r.None? ==> params == old(params))
      ensures options == old(options) && formatters == old(formatters)
      ensures validators == old(validators) && parsers == old(parsers)
    {
      if raw.None? {
        r := Get(name);
      } else if name in params.entries {
        r := Set(name, raw.value, SpecOptions(spec));
      } else {
        r := Add(name, raw.value, spec);
      }
    }

    /** `param(name).value()`: the stored value through the current formatters. */
    function ValueOf(name: string): (r: Option<Value>)
      reads this
      ensures r.Some? <==> name in params.entries
      ensures r.Some? ==> r.value == Formatted(params.entries[name], formatters)
    {
      if name in params.entries then Some(Formatted(params.entries[name], formatters)) else None
    }

    /** `param(name).value(x)`: assign, then read back the formatted value. */
    method AssignValue(name: string, raw: Value) returns (r: Option<Value>)
      requires Valid()
      modifies this
      ensures Valid()
      ensures r.Some? <==> name in old(params.entries)
      ensures r.Some? ==> params == old(params).Put(name, Assign(old(params.entries[name]), raw))
      ensures r.None? ==> params == old(params)
      ensures r == ValueOf(name)
      ensures options == old(options) && formatters == old(formatters)
      ensures validators == old(validators) && parsers == old(parsers)
    {
      if name in params.entries {
        params := params.Put(name, Assign(params.entries[name], raw));
        r := Some(Formatted(params.entries[name], formatters));
      } else {
        r := None;
      }
    }

    /** `param(name).option(key)`: a parameter's own option. */
    function GetParamOption(name: string, key: string): (r: Option<Value>)
      reads this
      ensures r.Some? <==> name in params.entries && key in params.entries[name].options
      ensures r.Some? ==> r.value == params.entries[name].options[key]
    {
      if name in params.entries && key in params.entries[name].options
      then Some(params.entries[name].options[key]) else None
    }

    /** `param(name).option(key, value)`: set a parameter's own option; returns the parameter. */
    method SetParamOption(name: string, key: string, v: Value) returns (r: Option<Param>)
      requires Valid()
      modifies this
      ensures Valid()
      ensures r.Some? <==> name in old(params.entries)
      ensures r.Some? ==> r.value == WithOptions(old(params.entries[name]), map[key := v])
      ensures r.Some? ==> params == old(params).Put(name, r.value)
      ensures r.None? ==> params == old(params)
      ensures options == old(options) && formatters == old(formatters)
      ensures validators == old(validators) && parsers == old(parsers)
    {
      if name in params.entries {
        var p := WithOptions(params.entries[name], map[key := v]);
        params := params.Put(name, p);
        r := Some(p);
      } else {
        r := None;
      }
    }

    // --------------------------------------------------------------- options

    /** `option(name)`: a schema-level option. */
    function GetOption(name: string): (r: Option<Value>)
      reads this
      ensures r.Some? <==> name in options.entries
      ensures r.Some? ==> r.value == options.entries[name]
    {
      options.Get(name)
    }

    /** `option(name, value)`: set a schema-level option; returns the value. */
    method SetOption(name: string, v: Value) returns (r: Value)
      requires Valid()
      modifies this
      ensures Valid()
      ensures r == v && options == old(options).Put(name, v)
      ensures params == old(params) && formatters == old(formatters)
      ensures validators == old(validators) && parsers == old(parsers)
    {
      options := options.Put(name, v);
      r := v;
    }

    /** `_getQueryParamName(name)`. */
    function QueryParamName(name: string): (q: string)
      reads this
      ensures name in options.entries && options.entries[name].VStr? ==> q == options.entries[name].s
      ensures !(name in options.entries && options.entries[name].VStr?) ==> q == name
    {
      QueryName(options, name)
    }

    /** `_getSchemaParamName(name)`. */
    function SchemaParamName(name: string): (k: string)
      reads this
      ensures k == name || (k in options.entries && options.entries[k] == VStr(name))
      ensures IsAlias(options, name) && options.Valid() ==> k in options.entries && options.entries[k] == VStr(name)
    {
      SchemaName(options, name)
    }

    // -------------------------------------------------------------- registries

    /** `formatter(name, fn)`: register (or replace) a formatter; returns it. */
    method RegisterFormatter(name: string, f: Formatter) returns (r: Formatter)
      requires Valid()
      modifies this
      ensures Valid()
      ensures r == f && formatters == old(formatters).Put(name, f)
      ensures params == old(params) && options == old(options)
      ensures validators == old(validators) && parsers == old(parsers)
    {
      formatters := formatters.Put(name, f);
      r := f;
    }

    /** `validator(name, fn)`: register (or replace) a validator; returns it. */
    method RegisterValidator(name: string, f: Validator) returns (r: Validator)
      requires Valid()
      modifies this
      ensures Valid()
      ensures r == f && validators == old(validators).Put(name, f)
      ensures params == old(params) && options == old(options)
      ensures formatters == old(formatters) && parsers == old(parsers)
    {
      validators := validators.Put(name, f);
      r := f;
    }

    /** `parser(name, fn)`: register (or replace) a parser; returns it. */
    method RegisterParser(name: string, f: Parser) returns (r: Parser)
      requires Valid()
      modifies this
      ensures Valid()
      ensures r == f && parsers == old(parsers).Put(name, f)
      ensures params == old(params) && options == old(options)
      ensures formatters == old(formatters) && validators == old(validators)
    {
      parsers := parsers.Put(name, f);
      r := f;
    }

    /** `formatter(name)`, also `param(p).formatter(name)`: looked up in the schema at call time. */
    function FormatterOf(name: string): (r: Option<Formatter>)
      reads this
      ensures r.Some? <==> name in formatters.entries
    {
      formatters.Get(name)
    }

    /** `validator(name)`, also `param(p).validator(name)`. */
    function ValidatorOf(name: string): (r: Option<Validator>)
      reads this
      ensures r.Some? <==> name in validators.entries
    {
      validators.Get(name)
    }

    /** `parser(name)`, also `param(p).parser(name)`. */
    function ParserOf(name: string): (r: Option<Parser>)
      reads this
      ensures r.Some? <==> name in parsers.entries
    {
      parsers.Get(name)
    }

    // ------------------------------------------------------------- pipelines

    /** Assign every parameter the input value under its query name, where there is one. */
    method AssignInput(input: map<string, Value>)
      requires Valid()
      modifies this
      ensures Valid()
      ensures params.keys == old(params.keys)
      ensures params.entries == AssignAll(old(params.entries), input, options)
      ensures options == old(options) && formatters == old(formatters)
      ensures validators == old(validators) && parsers == old(parsers)
    {
      var entries := AssignEach(params.keys, params.entries, input, options);
      params := OMap(params.keys, entries);
    }

    /**
     * `validate()`: run the enabled validators of every parameter, stopping
     * at the first failure, which is what the callback form receives.
     */
    method Validate() returns (ok: bool, err: Option<Verdict>)
      requires Valid()
      ensures ok <==> Failures(params.keys, params.entries, formatters, validators) == []
      ensures ok <==> err.None?
      ensures !ok ==> err == Some(Failures(params.keys, params.entries, formatters, validators)[0])
    {
      err := FirstFailureOf(params.keys, params.entries, formatters, validators);
      ok := err.None?;
    }

    /** `validate(input)`: assign the input first, then validate. */
    method ValidateInput(input: map<string, Value>) returns (ok: bool, err: Option<Verdict>)
      requires Valid()
      modifies this
      ensures Valid()
      ensures params.keys == old(params.keys)
      ensures params.entries == AssignAll(old(params.entries), input, options)
      ensures options == old(options) && formatters == old(formatters)
      ensures validators == old(validators) && parsers == old(parsers)
      ensures ok <==> Failures(params.keys, params.entries, formatters, validators) == []
      ensures ok <==> err.None?
      ensures !ok ==> err == Some(Failures(params.keys, params.entries, formatters, validators)[0])
    {
      AssignInput(input);
      ok, err := Validate();
    }

    /** `parse(input)`: assign the input, then bucket every parameter. */
    method Parse(input: map<string, Value>) returns (r: Parsed)
      requires Valid()
      modifies this
      ensures Valid()
      ensures params.keys == old(params.keys)
      ensures params.entries == AssignAll(old(params.entries), input, options)
      ensures options == old(options) && formatters == old(formatters)
      ensures validators == old(validators) && parsers == old(parsers)
      ensures r == ParseOf(params, options, formatters, parsers)
    {
      AssignInput(input);
      r := ParseOf(params, options, formatters, parsers);
    }
  }
}

=== FILE: text.dfy ===
/**
 * String primitives the schema relies on: comma splitting as JavaScript's
 * `String.prototype.split`, ASCII case mapping as `toUpperCase`/`toLowerCase`,
 * and the decimal conversions behind `String(n)` and `Number(s)` restricted
 * to integers.
 */
module Text {
  import opened Wrappers

  // ---------------------------------------------------------------- split/join

  /** `s.split(sep)`: never empty; "" splits into [""], a trailing separator yields a final "". */
  function Split(s: string, sep: char): (parts: seq<string>)
    ensures |parts| >= 1
    decreases |s|
  {
    if s == [] then [""]
    else
      var rest := Split(s[1..], sep);
      if s[0] == sep then [""] + rest else [[s[0]] + rest[0]] + rest[1..]
  }

  /** `parts.join(sep)`. */
  function Join(parts: seq<string>, sep: char): string
    decreases |parts|
  {
    if |parts| == 0 then ""
    else if |parts| == 1 then parts[0]
    else parts[0] + [sep] + Join(parts[1..], sep)
  }

  /** Splitting and joining back with the same separator gives the original string. */
  lemma {:induction false} JoinSplit(s: string, sep: char)
    ensures Join(Split(s, sep), sep) == s
    decreases |s|
  {
    if s != [] {
      var rest := Split(s[1..], sep);
      JoinSplit(s[1..], sep);
      if s[0] == sep {
        assert Split(s, sep) == [""] + rest;
        assert [s[0]] + s[1..] == s;
      } else {
        var parts := [[s[0]] + rest[0]] + rest[1..];
        assert Split(s, sep) == parts;
        if |rest| == 1 {
          assert Join(parts, sep) == [s[0]] + rest[0] == [s[0]] + s[1..];
        } else {
          assert parts[1..] == rest[1..];
          calc {
            Join(parts, sep);
            ([s[0]] + rest[0]) + [sep] + Join(rest[1..], sep);
            [s[0]] + (rest[0] + [sep] + Join(rest[1..], sep));
            [s[0]] + Join(rest, sep);
          }
        }
        assert [s[0]] + s[1..] == s;
      }
    }
  }

  /** A string without the separator splits into itself alone. */
  lemma {:induction false} SplitWhole(s: string, sep: char)
    requires sep !in s
    ensures Split(s, sep) == [s]
    decreases |s|
  {
    if s != [] {
      SplitWhole(s[1..], sep);
      assert [s[0]] + s[1..] == s;
    }
  }

  /** The first piece is everything before the first separator. */
  lemma {:induction false} SplitFirst(a: string, sep: char, b: string)
    requires sep !in a
    ensures Split(a + [sep] + b, sep) == [a] + Split(b, sep)
    decreases |a|
  {
    var s := a + [sep] + b;
    if a == [] {
      assert s[1..] == b;
    } else {
      assert s[0] == a[0];
      assert s[1..] == a[1..] + [sep] + b;
      SplitFirst(a[1..], sep, b);
      assert [a[0]] + a[1..] == a;
    }
  }

  /** No piece of a split contains the separator. */
  lemma {:induction false} SplitPiecesFree(s: string, sep: char)
    ensures forall i :: 0 <= i < |Split(s, sep)| ==> sep !in Split(s, sep)[i]
    decreases |s|
  {
    if s != [] {
      SplitPiecesFree(s[1..], sep);
    }
  }

  // ------------------------------------------------------------ case mapping

  function UpperChar(c: char): (u: char)
    ensures 'a' <= c <= 'z' ==> u as int == c as int - 32
    ensures !('a' <= c <= 'z') ==> u == c
  {
    if 'a' <= c <= 'z' then (c as int - 32) as char else c
  }

  function LowerChar(c: char): (l: char)
    ensures 'A' <= c <= 'Z' ==> l as int == c as int + 32
    ensures !('A' <= c <= 'Z') ==> l == c
  {
    if 'A' <= c <= 'Z' then (c as int + 32) as char else c
  }

  /** `s.toUpperCase()` on the ASCII letters. */
  function Upper(s: string): (u: string)
    ensures |u| == |s|
    ensures forall i :: 0 <= i < |s| ==> u[i] == UpperChar(s[i])
    decreases |s|
  {
    if s == [] then [] else [UpperChar(s[0])] + Upper(s[1..])
  }

  /** Upper-casing twice is upper-casing once. */
  lemma {:induction false} UpperIdempotent(s: string)
    ensures Upper(Upper(s)) == Upper(s)
    decreases |s|
  {
    if s != [] {
      UpperIdempotent(s[1..]);
      assert Upper(s)[1..] == Upper(s[1..]);
    }
  }

  /** An upper-cased string has no lower-case ASCII letter left. */
  lemma UpperHasNoLower(s: string)
    ensures forall i :: 0 <= i < |Upper(s)| ==> !('a' <= Upper(s)[i] <= 'z')
  {
  }

  // ------------------------------------------------------- decimal integers

  predicate IsDigit(c: char) { '0' <= c <= '9' }

  predicate AllDigits(s: string) { forall i :: 0 <= i < |s| ==> IsDigit(s[i]) }

  function DigitChar(d: nat): (c: char)
    requires d < 10
    ensures IsDigit(c) && c as int - '0' as int == d
  {
    ('0' as int + d) as char
  }

  /** The value of a string of decimal digits (most significant first). */
  function DigitsValue(s: string): nat
    requires AllDigits(s)
    decreases |s|
  {
    if s == [] then 0 else DigitsValue(s[..|s| - 1]) * 10 + (s[|s| - 1] as int - '0' as int)
  }

  /** The shortest decimal spelling of `n`, as `String(n)` writes it: no leading zero except in `"0"`. */
  function NatToString(n: nat): (s: string)
    ensures |s| >= 1 && AllDigits(s)
    ensures s[0] == '0' <==> n == 0
    decreases n
  {
    if n < 10 then [DigitChar(n)] else NatToString(n / 10) + [DigitChar(n % 10)]
  }

  /** `String(i)` for an integer `i`. */
  function IntToString(i: int): (s: string)
    ensures |s| >= 1
    ensures i < 0 <==> s[0] == '-'
  {
    if i < 0 then "-" + NatToString(-i) else NatToString(i)
  }

  /** Reading back the digits of `n` gives `n`. */
  lemma {:induction false} DigitsOfNat(n: nat)
    ensures DigitsValue(NatToString(n)) == n
    decreases n
  {
    if n >= 10 {
      DigitsOfNat(n / 10);
      var s := NatToString(n);
      assert s[..|s| - 1] == NatToString(n / 10);
    }
  }

  /**
   * `Number(s)` restricted to integers: an optional sign followed by one or
   * more decimal digits is that integer, the empty string is 0, anything else
   * is none (JavaScript's `NaN`).
   */
  function ParseInt(s: string): (r: Option<int>)
    ensures r.None? ==> s != [] && !AllDigits(s)
    ensures AllDigits(s) ==> r == Some(if s == [] then 0 else DigitsValue(s))
  {
    if s == [] then Some(0)
    else if (s[0] == '-' || s[0] == '+') && |s| > 1 && AllDigits(s[1..]) then
      Some(if s[0] == '-' then 0 - DigitsValue(s[1..]) else DigitsValue(s[1..]))
    else if AllDigits(s) then Some(DigitsValue(s))
    else None
  }

  /** `Number(String(i)) === i` for every integer. */
  lemma IntStringRoundTrip(i: int)
    ensures ParseInt(IntToString(i)) == Some(i)
  {
    if i < 0 {
      var t := NatToString(-i);
      var s := "-" + t;
      assert s == IntToString(i);
      assert s[0] == '-' && |s| > 1 && s[1..] == t;
      DigitsOfNat(-i);
      assert ParseInt(s) == Some(0 - DigitsValue(t));
    } else {
      DigitsOfNat(i);
      assert AllDigits(IntToString(i));
    }
  }
}

=== FILE: tokens.dfy ===
/**
 * Tokenization of the `select` and `sort` parameters: a comma-separated list
 * of field names, each optionally prefixed by `-` (exclude / descending) or
 * `+` (include / ascending; also the meaning of no prefix).
 */
module Tokens {
  import Text

  /** The field a token names (its sign stripped). */
  function Field(t: string): string {
    if |t| > 0 && (t[0] == '-' || t[0] == '+') then t[1..] else t
  }

  /** Whether a token asks for inclusion / ascending order. */
  predicate Ascending(t: string) {
    !(|t| > 0 && t[0] == '-')
  }

  /**
   * The direction of every field named in `tokens`, folding left to right so
   * that a later token for the same field overrides an earlier one; tokens
   * that name no field (`""`, `"-"`, `"+"`) are skipped.
   */
  function DirectionsOf(tokens: seq<string>): map<string, bool>
    decreases |tokens|
  {
    if tokens == [] then map[]
    else
      var last := tokens[|tokens| - 1];
      var d := DirectionsOf(tokens[..|tokens| - 1]);
      if Field(last) == "" then d else d[Field(last) := Ascending(last)]
  }

  function Directions(s: string): map<string, bool> {
    DirectionsOf(Text.Split(s, ','))
  }

  /** The `select` projection: 1 includes a field, 0 excludes it. */
  function SelectMap(s: string): (r: map<string, int>)
    ensures forall k :: k in r ==> r[k] == 0 || r[k] == 1
  {
    var d := Directions(s);
    map k | k in d :: if d[k] then 1 else 0
  }

  /** The `sort` specification: 1 ascending, -1 descending. */
  function SortMap(s: string): (r: map<string, int>)
    ensures forall k :: k in r ==> r[k] == 1 || r[k] == -1
  {
    var d := Directions(s);
    map k | k in d :: if d[k] then 1 else -1
  }

  /** A field is mapped exactly when some token names it. */
  lemma {:induction false} DirectionsKeys(tokens: seq<string>, k: string)
    ensures k in DirectionsOf(tokens) <==>
            k != "" && exists i :: 0 <= i < |tokens| && Field(tokens[i]) == k
    decreases |tokens|
  {
    if tokens != [] {
      var init := tokens[..|tokens| - 1];
      DirectionsKeys(init, k);
      if k != "" && (exists i :: 0 <= i < |tokens| && Field(tokens[i]) == k) {
        var i :| 0 <= i < |tokens| && Field(tokens[i]) == k;
        if i < |init| {
          assert Field(init[i]) == k;
        }
      }
      if k != "" && (exists i :: 0 <= i < |init| && Field(init[i]) == k) {
        var i :| 0 <= i < |init| && Field(init[i]) == k;
        assert Field(tokens[i]) == k;
      }
    }
  }

  /** A field's direction is the one given by the last token that names it. */
  lemma {:induction false} DirectionsLastWins(tokens: seq<string>, i: nat)
    requires i < |tokens| && Field(tokens[i]) != ""
    requires forall j :: i < j < |tokens| ==> Field(tokens[j]) != Field(tokens[i])
    ensures Field(tokens[i]) in DirectionsOf(tokens)
    ensures DirectionsOf(tokens)[Field(tokens[i])] == Ascending(tokens[i])
    decreases |tokens|
  {
    if i < |tokens| - 1 {
      var init := tokens[..|tokens| - 1];
      assert init[i] == tokens[i];
      DirectionsLastWins(init, i);
    }
  }

  /** `select` and `sort` read the same fields with the same directions. */
  lemma SelectSortAgree(s: string)
    ensures SelectMap(s).Keys == SortMap(s).Keys
    ensures forall k :: k in SelectMap(s) ==> SortMap(s)[k] == 2 * SelectMap(s)[k] - 1
  {
  }

  /** No mapped field name contains the separator. */
  lemma FieldsHaveNoComma(s: string, k: string)
    requires k in Directions(s)
    ensures ',' !in k
  {
    var parts := Text.Split(s, ',');
    DirectionsKeys(parts, k);
    var i :| 0 <= i < |parts| && Field(parts[i]) == k;
    Text.SplitPiecesFree(s, ',');
    assert ',' !in parts[i];
    if |parts[i]| > 0 && (parts[i][0] == '-' || parts[i][0] == '+') {
      assert k == parts[i][1..];
      forall j | 0 <= j < |k| ensures k[j] != ',' {
        assert k[j] == parts[i][j + 1];
      }
    }
  }

  /** The tokens of the mixed example `-a,b,+c`. */
  lemma MixedTokens()
    ensures Text.Split("-a,b,+c", ',') == ["-a", "b", "+c"]
  {
    Text.SplitWhole("+c", ',');
    Text.SplitFirst("b", ',', "+c");
    assert "b" + [','] + "+c" == "b,+c";
    Text.SplitFirst("-a", ',', "b,+c");
    assert "-a" + [','] + "b,+c" == "-a,b,+c";
  }

  lemma MixedDirections()
    ensures Directions("-a,b,+c") == map["a" := false, "b" := true, "c" := true]
  {
    MixedTokens();
    var ts := ["-a", "b", "+c"];
    assert ts[..2] == ["-a", "b"];
    assert ts[..2][..1] == ["-a"];
    assert Field("-a") == "a" && Field("b") == "b" && Field("+c") == "c";
    assert DirectionsOf(["-a"]) == map["a" := false];
  }

  /** `select`: nothing for an empty string, a single field, mixed signs. */
  lemma SelectExamples()
    ensures SelectMap("") == map[]
    ensures SelectMap("a") == map["a" := 1]
    ensures SelectMap("-a,b,+c") == map["a" := 0, "b" := 1, "c" := 1]
  {
    SelectOfEmpty();
    SelectOfSingle();
    SelectOfMixed();
  }

  lemma SelectOfEmpty()
    ensures SelectMap("") == map[]
  {
    assert DirectionsOf([""]) == map[];
  }

  lemma SelectOfSingle()
    ensures SelectMap("a") == map["a" := 1]
  {
    Text.SplitWhole("a", ',');
    assert DirectionsOf(["a"]) == map["a" := true];
  }

  lemma SelectOfMixed()
    ensures SelectMap("-a,b,+c") == map["a" := 0, "b" := 1, "c" := 1]
  {
    MixedDirections();
  }

  /** `sort`: a single descending field, mixed signs. */
  lemma SortExamples()
    ensures SortMap("-a") == map["a" := -1]
    ensures SortMap("-a,b,+c") == map["a" := -1, "b" := 1, "c" := 1]
  {
    SortOfSingle();
    MixedDirections();
  }

  lemma SortOfSingle()
    ensures SortMap("-a") == map["a" := -1]
  {
    Text.SplitWhole("-a", ',');
    assert DirectionsOf(["-a"]) == map["a" := false];
  }

  lemma SortOfName()
    ensures SortMap("name") == map["name" := 1]
  {
    Text.SplitWhole("name", ',');
    assert DirectionsOf(["name"]) == map["name" := true];
  }
}

=== FILE: validation.dfy ===
/**
 * The validate pipeline: every validator enabled on a parameter is called
 * with the option value, the parameter's formatted value and the parameter;
 * the schema is valid when no call reports `valid: false`.
 */
module Validation {
  import opened Values
  import opened OrderedMaps
  import opened Params
  import opened Behaviours
  import opened Formatting

  /** The verdict validator `name` gives on parameter `p`. */
  function VerdictOf(p: Param, formatters: OMap<Formatter>, validators: OMap<Validator>, name: string): (r: Verdict)
    requires Enabled(name, p.options, validators.entries)
    ensures r.valid <==> EndsInS(Formatted(p, formatters))
    ensures r.message == p.name + " must be in plural form."
  {
    Check(validators.entries[name], p.options[name], Formatted(p, formatters), p.name)
  }

  /** The failing verdicts of `p`'s enabled validators among `names`, in that order. */
  function ParamFailures(p: Param, formatters: OMap<Formatter>, validators: OMap<Validator>,
                         names: seq<string>): (r: seq<Verdict>)
    ensures forall i :: 0 <= i < |r| ==> !r[i].valid
    decreases |names|
  {
    if names == [] then []
    else
      var n := names[|names| - 1];
      var prev := ParamFailures(p, formatters, validators, names[..|names| - 1]);
      if Enabled(n, p.options, validators.entries) && !VerdictOf(p, formatters, validators, n).valid
      then prev + [VerdictOf(p, formatters, validators, n)]
      else prev
  }

  /** The failing verdicts of all parameters, parameter by parameter in `order`. */
  function Failures(order: seq<string>, params: map<string, Param>, formatters: OMap<Formatter>,
                    validators: OMap<Validator>): (r: seq<Verdict>)
    ensures forall i :: 0 <= i < |r| ==> !r[i].valid
    decreases |order|
  {
    if order == [] then []
    else
      var n := order[|order| - 1];
      var prev := Failures(order[..|order| - 1], params, formatters, validators);
      if n in params then prev + ParamFailures(params[n], formatters, validators, validators.keys)
      else prev
  }

  /** Every validator enabled on `p` among `names` accepts its value. */
  ghost predicate ParamPasses(p: Param, formatters: OMap<Formatter>, validators: OMap<Validator>,
                              names: seq<string>) {
    forall j :: 0 <= j < |names| && Enabled(names[j], p.options, validators.entries) ==>
      VerdictOf(p, formatters, validators, names[j]).valid
  }

  /** Every enabled validator of every parameter in `order` accepts its value. */
  ghost predicate AllPass(order: seq<string>, params: map<string, Param>, formatters: OMap<Formatter>,
                          validators: OMap<Validator>) {
    forall i :: 0 <= i < |order| && order[i] in params ==>
      ParamPasses(params[order[i]], formatters, validators, validators.keys)
  }

  lemma {:induction false} ParamFailuresEmpty(p: Param, formatters: OMap<Formatter>,
                                              validators: OMap<Validator>, names: seq<string>)
    ensures ParamFailures(p, formatters, validators, names) == [] <==>
            ParamPasses(p, formatters, validators, names)
    decreases |names|
  {
    if names != [] {
      var init := names[..|names| - 1];
      ParamFailuresEmpty(p, formatters, validators, init);
      if ParamPasses(p, formatters, validators, names) {
        forall j | 0 <= j < |init| && Enabled(init[j], p.options, validators.entries)
          ensures VerdictOf(p, formatters, validators, init[j]).valid
        {
          assert names[j] == init[j];
        }
      }
    }
  }

  /** The schema is valid exactly when every enabled validator accepts. */
  lemma {:induction false} FailuresEmpty(order: seq<string>, params: map<string, Param>,
                                         formatters: OMap<Formatter>, validators: OMap<Validator>)
    ensures Failures(order, params, formatters, validators) == [] <==>
            AllPass(order, params, formatters, validators)
    decreases |order|
  {
    if order != [] {
      var init := order[..|order| - 1];
      var n := order[|order| - 1];
      FailuresEmpty(init, params, formatters, validators);
      if n in params {
        ParamFailuresEmpty(params[n], formatters, validators, validators.keys);
      }
      if AllPass(order, params, formatters, validators) {
        forall i | 0 <= i < |init| && init[i] in params
          ensures ParamPasses(params[init[i]], formatters, validators, validators.keys)
        {
          assert order[i] == init[i];
        }
      }
    }
  }

  /** With no validator enabled anywhere, the schema is valid. */
  lemma ValidWhenNoneEnabled(order: seq<string>, params: map<string, Param>,
                             formatters: OMap<Formatter>, validators: OMap<Validator>)
    requires forall n, v :: n in params && v in validators.entries && v in params[n].options ==>
               !Truthy(params[n].options[v])
    ensures Failures(order, params, formatters, validators) == []
  {
    FailuresEmpty(order, params, formatters, validators);
  }

  /** One enabled validator that rejects its parameter makes the schema invalid. */
  lemma InvalidWhenOneRejects(order: seq<string>, params: map<string, Param>,
                              formatters: OMap<Formatter>, validators: OMap<Validator>,
                              n: string, v: string)
    requires validators.Valid()
    requires n in order && n in params && Enabled(v, params[n].options, validators.entries)
    requires !VerdictOf(params[n], formatters, validators, v).valid
    ensures Failures(order, params, formatters, validators) != []
  {
    FailuresEmpty(order, params, formatters, validators);
    var i :| 0 <= i < |order| && order[i] == n;
    var j :| 0 <= j < |validators.keys| && validators.keys[j] == v;
  }

  /** The failures of a prefix of the parameters come first among all failures. */
  lemma {:induction false} FailuresPrefix(order: seq<string>, params: map<string, Param>,
                                          formatters: OMap<Formatter>, validators: OMap<Validator>, k: nat)
    requires k <= |order|
    ensures Failures(order[..k], params, formatters, validators) <= Failures(order, params, formatters, validators)
    decreases |order|
  {
    if k < |order| {
      var init := order[..|order| - 1];
      assert init[..k] == order[..k];
      FailuresPrefix(init, params, formatters, validators, k);
    } else {
      assert order[..k] == order;
    }
  }

  /** Likewise for the validators of one parameter. */
  lemma {:induction false} ParamFailuresPrefix(p: Param, formatters: OMap<Formatter>,
                                               validators: OMap<Validator>, names: seq<string>, k: nat)
    requires k <= |names|
    ensures ParamFailures(p, formatters, validators, names[..k]) <= ParamFailures(p, formatters, validators, names)
    decreases |names|
  {
    if k < |names| {
      var init := names[..|names| - 1];
      assert init[..k] == names[..k];
      ParamFailuresPrefix(p, formatters, validators, init, k);
    } else {
      assert names[..k] == names;
    }
  }

  /** Extending the order by one parameter appends that parameter's failures. */
  lemma FailuresStep(order: seq<string>, params: map<string, Param>,
                     formatters: OMap<Formatter>, validators: OMap<Validator>, i: nat)
    requires i < |order|
    ensures Failures(order[..i + 1], params, formatters, validators) ==
            Failures(order[..i], params, formatters, validators) +
            (if order[i] in params then ParamFailures(params[order[i]], formatters, validators, validators.keys)
             else [])
  {
    assert order[..i + 1][..i] == order[..i];
  }
}

=== FILE: values.dfy ===
/**
 * The dynamically typed values that flow through a schema, and the type
 * coercion applied whenever a parameter is assigned.
 *
 * JavaScript numbers are modelled as integers plus a distinguished NaN; a
 * regular expression is the tag `VPattern(source)`, standing for the
 * case-insensitive expression `new RegExp(source, 'i')`.
 */
module Values {
  import opened Wrappers
  import Text

  datatype Number = Finite(n: int) | NaN

  datatype Value =
    | VNull                                  // null / undefined: "no value"
    | VBool(b: bool)
    | VNum(x: Number)
    | VStr(s: string)
    | VPattern(source: string)               // /source/i
    | VObj(fields: map<string, Value>)       // a plain object, e.g. a query fragment

  /** The type markers a parameter may declare (`String`, `Number`, `Boolean`, `RegExp`). */
  datatype TypeMarker = StringType | NumberType | BooleanType | RegExpType

  /** The marker a value's own runtime type corresponds to, if any. */
  function TypeOf(v: Value): (t: Option<TypeMarker>)
    ensures t == Some(StringType) <==> v.VStr?
    ensures t == Some(NumberType) <==> v.VNum?
    ensures t == Some(BooleanType) <==> v.VBool?
    ensures t == Some(RegExpType) <==> v.VPattern?
  {
    match v
    case VStr(_) => Some(StringType)
    case VNum(_) => Some(NumberType)
    case VBool(_) => Some(BooleanType)
    case VPattern(_) => Some(RegExpType)
    case _ => None
  }

  /** JavaScript truthiness. */
  predicate Truthy(v: Value) {
    match v
    case VNull => false
    case VBool(b) => b
    case VNum(x) => x.Finite? && x.n != 0
    case VStr(s) => s != ""
    case VPattern(_) => true
    case VObj(_) => true
  }

  /** The falsy values of JavaScript, as far as the model has them: null, false, 0, NaN and "". */
  lemma FalsyValues(v: Value)
    ensures !Truthy(v) <==> v == VNull || v == VBool(false) || v == VNum(Finite(0)) || v == VNum(NaN) || v == VStr("")
  {
    match v
    case VNum(x) => if x.Finite? { assert Truthy(v) <==> x.n != 0; }
    case _ =>
  }

  /** `String(v)`. */
  function ToStr(v: Value): (r: string)
    ensures v.VStr? ==> r == v.s
    ensures v.VNum? && v.x.Finite? ==> Text.ParseInt(r) == Some(v.x.n)
  {
    match v
    case VNull => "null"
    case VBool(b) => if b then "true" else "false"
    case VNum(x) => if x.NaN? then "NaN" else Text.IntStringRoundTrip(x.n); Text.IntToString(x.n)
    case VStr(s) => s
    case VPattern(src) => "/" + src + "/i"
    case VObj(_) => "[object Object]"
  }

  /** `Number(s)` restricted to integers: what does not spell one is NaN. */
  function StrToNumber(s: string): (x: Number)
    ensures Text.AllDigits(s) ==> x.Finite?
  {
    match Text.ParseInt(s)
    case Some(i) => Finite(i)
    case None => NaN
  }

  /** `Number(v)`. */
  function ToNumber(v: Value): (r: Number)
    ensures v.VNum? ==> r == v.x
    ensures v.VBool? ==> r == Finite(if v.b then 1 else 0)
    ensures v.VStr? ==> (r.Finite? <==> Text.ParseInt(v.s).Some?)
    ensures v.VStr? && r.Finite? ==> r.n == Text.ParseInt(v.s).value
  {
    match v
    case VNull => Finite(0)
    case VBool(b) => Finite(if b then 1 else 0)
    case VNum(x) => x
    case VStr(s) => StrToNumber(s)
    case VPattern(_) => NaN
    case VObj(_) => NaN
  }

  /** Coercion of a raw value to a declared (or inferred) type marker; null stays null. */
  function Coerce(t: Option<TypeMarker>, v: Value): (r: Value)
    ensures v == VNull ==> r == VNull
    ensures t.None? ==> r == v
    ensures t.Some? && v != VNull ==> TypeOf(r) == t
  {
    if v == VNull || t.None? then v
    else match t.value
      case StringType => VStr(ToStr(v))
      case NumberType => VNum(ToNumber(v))
      case BooleanType => VBool(Truthy(v))
      case RegExpType => if v.VPattern? then v else VPattern(ToStr(v))
  }

  /** A value already of the target type passes through coercion unchanged. */
  lemma CoerceOwnType(v: Value)
    ensures Coerce(TypeOf(v), v) == v
  {
  }

  /** Coercing twice to the same type is coercing once. */
  lemma CoerceIdempotent(t: Option<TypeMarker>, v: Value)
    ensures Coerce(t, Coerce(t, v)) == Coerce(t, v)
  {
    if t.Some? && v != VNull {
      CoerceOwnType(Coerce(t, v));
    }
  }

  /** A number turned into a string by the String marker is recovered by the Number marker. */
  lemma NumberStringRoundTrip(i: int)
    ensures Coerce(Some(NumberType), Coerce(Some(StringType), VNum(Finite(i)))) == VNum(Finite(i))
  {
    Text.IntStringRoundTrip(i);
  }

  // JavaScript arithmetic on numbers, with NaN absorbing.

  function Minus(a: Number, b: Number): (r: Number)
    ensures r.Finite? <==> a.Finite? && b.Finite?
    ensures r.Finite? ==> r.n == a.n - b.n
  {
    if a.Finite? && b.Finite? then Finite(a.n - b.n) else NaN
  }

  function Times(a: Number, b: Number): (r: Number)
    ensures r.Finite? <==> a.Finite? && b.Finite?
    ensures r.Finite? ==> r.n == a.n * b.n
  {
    if a.Finite? && b.Finite? then Finite(a.n * b.n) else NaN
  }
}

=== FILE: wrappers.dfy ===
/** The absence-or-value type that replaces JavaScript's falsy "not found" sentinel. */
module Wrappers {
  datatype Option<+T> = None | Some(value: T)
}
